=== FILE: README.md ===
# fms content-processing engine in Dafny

This project models the decision logic of the file-management service ahadarif007/fms. That logic decides what happens to an uploaded file before it is stored:

- whether and how a file is compressed (GZIP, or PDFBox re-saving for PDFs);
- whether an image is re-encoded or thumbnailed, and with which format and quality;
- how the combined `processFile` pipeline reports its work;
- how the MinIO storage adapter names files, buckets and objects, and keeps its object store and file records consistent.

The libraries the service calls are opaque: GZIP streams, PDFBox, ImageIO and Thumbnailator. Each one is a function-typed field of `Library.Codecs`, so every property holds whatever the library does. A library call yields `Ok`, an `IoError` (IOException) or a `Fault` (any other exception). A service method either returns or lets an exception escape (`Outcome`). Java `null` is `Option.None` wherever the code tests for it.

Modules:

- `Common`: nullable values, byte payloads, and the `String` operations the code uses.
- `Library`: the codecs and the image configuration with its defaults.
- `Compression`: `FileCompressionServiceImpl` and the interface defaults. `FileProcessingServiceImpl`'s compression half is a line-for-line copy of it and is modelled once; rows cite both files where they coincide.
- `Imaging`: the image half of `FileProcessingServiceImpl`.
- `LegacyImaging`: the older `ImageProcessingService` that the storage adapter calls, plus lemmas that pin down how it differs from `Imaging`.
- `Processing`: `processFile`, as an imperative method over its own local variables.
- `MinioStorage`: the naming functions, plus a `MinioFileStore` class. Its object map and record map stand in for the MinIO client and the JPA repository.

Thresholds are exact integer inequalities:

- generic compression is worthwhile when `100·(original − compressed) ≥ 15·original`;
- image re-encoding is worthwhile when `10·(original − compressed) ≥ original`;
- in both cases the compressed size must also be strictly smaller.

Savings estimates are whole percentages. Image quality is in hundredths.

The combined method label in `processFile` joins an image step and a compression step with "_". The code never reaches that join: compression runs only for non-images, and image optimisation only for images. `Processing.ProcessFile` proves that the label is always one of NONE, IMAGE_OPTIMIZATION, GZIP and PDF_OPTIMIZATION.

## Model

| member | source | states |
|---|---|---|
| Common.ContainsChar | src/main/java/com/bracit/fms/fms/service/MinioFileStorageService.java:247 | `contains(".")` on a name holds exactly when the name has a '.' character |
| Common.IndexOf | src/main/java/com/bracit/fms/fms/service/FileProcessingServiceImpl.java:557-562 | the result is -1 or a position holding the character, and no earlier position holds it |
| Common.LastIndexOf | src/main/java/com/bracit/fms/fms/service/MinioFileStorageService.java:248 | the result is -1 or a position holding the character, and no later position holds it |
| Common.LowerIsLowerCase | src/main/java/com/bracit/fms/fms/service/FileProcessingServiceImpl.java:166-168 | a lower-cased string has no upper-case letter, and lower-casing it again changes nothing |
| Library.DefaultImageSettings | src/main/java/com/bracit/fms/fms/config/FileStorageProperties.java:67-85 | image compression and thumbnails are on, quality is 0.80, the box is 200×200, and six formats are allowed |
| Compression.NoCompression | src/main/java/com/bracit/fms/fms/service/FileCompressionServiceImpl.java:323-334 | not compressed, method NONE, the reason is kept, no data, no metadata entries, both sizes 0, saved bytes 0 |
| Compression.WorthwhileBounds | src/main/java/com/bracit/fms/fms/service/FileCompressionServiceImpl.java:290-297 | worthwhile exactly when the original is non-empty and the compressed size is at most 85% of it |
| Compression.EstimateCompressionSavings | src/main/java/com/bracit/fms/fms/service/FileCompressionServiceImpl.java:299-307 | 70 for text/plain, text/html and text/css; 80 for application/json and application/xml; 25 for application/pdf; 60 for the Word type; otherwise 50 for a text-based type and 20 for the rest; every estimate is above the 15% threshold |
| Compression.NamedTypeTextBased | src/main/java/com/bracit/fms/fms/service/FileCompressionServiceImpl.java:281-288 | application/json, application/xml and the Word type are text-based, through their "json" and "xml" infixes |
| Compression.PdfNotTextBased | src/main/java/com/bracit/fms/fms/service/FileCompressionServiceImpl.java:281-288 | application/pdf neither starts with "text/" nor contains "json", "xml" or "csv" |
| Compression.TextBasedEstimate | src/main/java/com/bracit/fms/fms/service/FileCompressionServiceImpl.java:281-288 | null is never text-based; a text-based type is estimated at 50% or more; a type that is not text-based is estimated at 25% if it is a PDF and 20% otherwise |
| Compression.GetCompressionRecommendation | src/main/java/com/bracit/fms/fms/service/FileCompressionServiceImpl.java:222-250 | too large gives "File too large" with NONE; an already-compressed type gives "File type already compressed" with NONE; otherwise the method is PDF_OPTIMIZATION for a PDF and GZIP for any other type, with the estimated savings and the reason "Expected X.0% reduction" for that estimate |
| Compression.RecommendationCharacterised | src/main/java/com/bracit/fms/fms/service/FileCompressionServiceImpl.java:222-250 | recommended exactly when neither guard fires, and exactly when the method is not NONE |
| Compression.GetEstimatedCompressionRatio | src/main/java/com/bracit/fms/fms/service/FileCompressionService.java:54-56 | the estimate at size 0 is 0 exactly for already-compressed types, and otherwise the table value |
| Compression.RecommendedIffCompressible | src/main/java/com/bracit/fms/fms/service/FileProcessingService.java:47-59 | at size 0 a type is recommended exactly when it is not already compressed, and exactly when its estimated ratio is positive |
| Compression.CompressGeneral | src/main/java/com/bracit/fms/fms/service/FileCompressionServiceImpl.java:151-192 | a worthwhile GZIP output is returned as a GZIP result of the whole input; an unworthwhile one gives "GZIP compression not beneficial"; an IOException gives "GZIP compression failed"; exactly a non-IO exception escapes; every result is well formed |
| Compression.CompressPdf | src/main/java/com/bracit/fms/fms/service/FileCompressionServiceImpl.java:94-146 | a worthwhile PDFBox save is returned as a PDF_OPTIMIZATION result; an unworthwhile one gives "PDF compression not beneficial"; a parse IOException gives exactly the GZIP path's result; an exception escapes exactly from PDFBox, or from GZIP after the fallback; every result is well formed |
| Compression.CompressFile | src/main/java/com/bracit/fms/fms/service/FileCompressionServiceImpl.java:57-89 | the guards fire in order: "Empty file", then "File too large for compression", then "Compression failed: null" for a null type, then "File type already compressed"; past them the result is compressPDF's for a PDF and compressGeneral's otherwise, and an escaping exception gives "Compression failed: " plus its message; every result is well formed (compressed implies strictly smaller, at least 15% saved, a known method, positive saved bytes) |
| Compression.GuardsCallNoCompressor | src/main/java/com/bracit/fms/fms/service/FileProcessingServiceImpl.java:77-90 | when a guard fires, the result does not depend on the codecs and nothing is compressed |
| Compression.NonPdfRouting | src/main/java/com/bracit/fms/fms/service/FileCompressionServiceImpl.java:73-83 | past the guards every non-PDF type, listed, text-like or unknown, takes the same GZIP path |
| Compression.PdfParseFailureFallsBackToGzip | src/main/java/com/bracit/fms/fms/service/FileProcessingServiceImpl.java:440-442 | a PDF that PDFBox cannot parse is compressed exactly as any other non-excluded type would be |
| Compression.DecompressFile | src/main/java/com/bracit/fms/fms/service/FileCompressionServiceImpl.java:198-216 | a null argument returns the data as it is; a tag equal to GZIP ignoring case with a successful gunzip returns gunzip's output; every other case returns the input unchanged |
| Compression.DecompressIgnoresCase | src/main/java/com/bracit/fms/fms/service/FileProcessingServiceImpl.java:112-130 | tags that agree once upper-cased decompress identically |
| Compression.CompressDecompressRoundTrip | src/main/java/com/bracit/fms/fms/service/FileCompressionServiceImpl.java:198-216 | with a lossless GZIP codec, decompressing a GZIP result under its own tag gives back the original bytes; a PDF_OPTIMIZATION result comes back as the optimised PDF |
| Imaging.IsImageFileByPrefix | src/main/java/com/bracit/fms/fms/service/FileProcessingServiceImpl.java:166-168 | an image type is exactly a non-null type whose lower-cased text starts with "image/" |
| Imaging.ExtractFormat | src/main/java/com/bracit/fms/fms/service/FileProcessingServiceImpl.java:557-562 | the subtype is lower-case; it is "" without a "/"; otherwise it is the lower-cased text after the first "/" |
| Imaging.SubtypeAfterPrefix | src/main/java/com/bracit/fms/fms/service/FileProcessingServiceImpl.java:557-562 | on a type starting with "image/" in any letter case, the extracted subtype is the lower-cased text after the sixth character |
| Imaging.SupportedBySubtype | src/main/java/com/bracit/fms/fms/service/FileProcessingServiceImpl.java:171-181 | a type is supported exactly when it starts with "image/" in any letter case and its lower-cased subtype is both configured and built in |
| Imaging.OutputFormat | src/main/java/com/bracit/fms/fms/service/FileProcessingServiceImpl.java:564-571 | "jpeg" becomes "jpg" and "svg+xml" becomes "png"; every other subtype passes through unchanged; the output is lower-case |
| Imaging.OptimalQuality | src/main/java/com/bracit/fms/fms/service/FileProcessingServiceImpl.java:573-580 | the configured quality for jpeg/jpg, quality plus 0.10 capped at 1.00 for webp, and 1.00 otherwise |
| Imaging.RequestedQuality | src/main/java/com/bracit/fms/fms/service/FileProcessingServiceImpl.java:205-207 | a quality is handed to the encoder exactly for jpg, jpeg and webp output |
| Imaging.ReadAndValidateImage | src/main/java/com/bracit/fms/fms/service/FileProcessingServiceImpl.java:540-555 | an image is returned exactly when it decodes and is at most 10000×10000 |
| Imaging.CompressImage | src/main/java/com/bracit/fms/fms/service/FileProcessingServiceImpl.java:184-231 | disabled, null or empty input comes back unchanged; for a valid image whose full-scale re-encoding succeeds and saves at least 10%, that encoding is returned; in every other case the input comes back unchanged |
| Imaging.OversizeImageUnchanged | src/main/java/com/bracit/fms/fms/service/FileProcessingServiceImpl.java:546-552 | an image wider or taller than 10000 pixels is never re-encoded |
| Imaging.BoundaryImageAccepted | src/main/java/com/bracit/fms/fms/service/FileProcessingServiceImpl.java:546-552 | a 10000×10000 image passes the gate, and a worthwhile re-encoding of it is returned |
| Imaging.CompressImageNeverGrows | src/main/java/com/bracit/fms/fms/service/FileProcessingServiceImpl.java:582-588 | the result is never longer than the input, and a changed result is at most 90% of it |
| Imaging.ThumbnailSpec | src/main/java/com/bracit/fms/fms/service/FileProcessingServiceImpl.java:249-258 | the request is a fit-within box of the given width and height in the given format, with quality 0.85 exactly for lossy formats |
| Imaging.GenerateThumbnail | src/main/java/com/bracit/fms/fms/service/FileProcessingServiceImpl.java:234-277 | null when disabled or for null or empty input; otherwise present exactly when the image is valid and the encoder succeeds, and then it is the encoder's output |
| Imaging.GenerateSingleThumbnail | src/main/java/com/bracit/fms/fms/service/FileProcessingServiceImpl.java:590-610 | renders the fit-within request for a size×size box; the thumbnail is the encoder's output when it succeeds; an IOException gives null, any other exception escapes |
| Imaging.Rendered | src/main/java/com/bracit/fms/fms/service/FileProcessingServiceImpl.java:292-295 | the successful renders, in size order: never more than the sizes; when every size renders, one output per size at its position; when none does, nothing |
| Imaging.RenderedConcat | src/main/java/com/bracit/fms/fms/service/FileProcessingServiceImpl.java:292-295 | the renders of a concatenated size list are those of the first part followed by those of the second, so the order of sizes is kept |
| Imaging.ThumbnailStream | src/main/java/com/bracit/fms/fms/service/FileProcessingServiceImpl.java:289-295 | aborts exactly when some size hits a non-IO exception; otherwise it is exactly the successful renders in input order, with IOException failures dropped |
| Imaging.GenerateMultipleThumbnails | src/main/java/com/bracit/fms/fms/service/FileProcessingServiceImpl.java:280-301 | [] when disabled, for null data or no sizes; [] for an undecodable or oversize image; otherwise the thumbnail stream over the valid image, or [] when the stream throws |
| Imaging.GetImageMetadata | src/main/java/com/bracit/fms/fms/service/FileProcessingServiceImpl.java:304-322 | width, height, alpha and the payload size of a decodable image, with no dimension gate; null when undecodable; a non-IO exception escapes |
| LegacyImaging.FormatName | src/main/java/com/bracit/fms/fms/service/ImageProcessingService.java:98-104 | throws exactly when the type is shorter than 6 characters; otherwise the lower-cased text after "image/", except that "jpeg" becomes "jpg" |
| LegacyImaging.CompressImage | src/main/java/com/bracit/fms/fms/service/ImageProcessingService.java:36-65 | disabled, undecodable or IOException returns the input; a successful full-scale re-encoding at the configured quality is returned whatever its size; an exception escapes exactly for a non-IO failure of decoding, of the format name or of encoding |
| LegacyImaging.GenerateThumbnail | src/main/java/com/bracit/fms/fms/service/ImageProcessingService.java:67-96 | null when disabled; otherwise present exactly when the image decodes and the configured-box encoding succeeds, and then it is the encoder's output; null on an undecodable image or an IOException; an exception escapes exactly for a non-IO failure of decoding, of the format name or of encoding |
| LegacyImaging.LegacyImageIsImage | src/main/java/com/bracit/fms/fms/service/ImageProcessingService.java:23-26 | every type the older service calls an image, the unified service does too |
| LegacyImaging.ImageTestCaseDiffers | src/main/java/com/bracit/fms/fms/service/ImageProcessingService.java:23-26 | "IMAGE/PNG" is an image to the unified service and not to the older one |
| LegacyImaging.SameSubtype | src/main/java/com/bracit/fms/fms/service/ImageProcessingService.java:28-34 | on an "image/" type both services read the same subtype |
| LegacyImaging.SupportAgreement | src/main/java/com/bracit/fms/fms/service/ImageProcessingService.java:28-34 | the unified service supports a format exactly when the older one does and the format is built in |
| LegacyImaging.DefaultSettingsAgree | src/main/java/com/bracit/fms/fms/service/ImageProcessingService.java:28-34 | with the default allow-list both services support the same "image/" types |
| LegacyImaging.WidenedAllowList | src/main/java/com/bracit/fms/fms/service/ImageProcessingService.java:28-34 | a configured "tiff" is supported by the older service only |
| LegacyImaging.SvgFormatDiffers | src/main/java/com/bracit/fms/fms/service/ImageProcessingService.java:98-104 | the older service writes svg+xml where the unified one writes png |
| LegacyImaging.NoSavingsThreshold | src/main/java/com/bracit/fms/fms/service/ImageProcessingService.java:51-60 | with an encoder that doubles the size, the older service returns the larger bytes and the unified one the original |
| LegacyImaging.NoDimensionGate | src/main/java/com/bracit/fms/fms/service/ImageProcessingService.java:67-96 | a 20000×20000 image still gets a thumbnail from the older service, and none from the unified one |
| Processing.DefaultOptions | src/main/java/com/bracit/fms/fms/service/FileProcessingService.java:228-236 | all three steps on, thumbnail size 150, quality 0.80 |
| Processing.NoProcessing | src/main/java/com/bracit/fms/fms/service/FileProcessingServiceImpl.java:700-707 | not processed, method NONE, saved 0, no data, and the metadata holds only the reason |
| Processing.ProcessFile | src/main/java/com/bracit/fms/fms/service/FileProcessingServiceImpl.java:332-402 | empty input gives "Empty file"; the method label is one of four, so the join is unreachable; saved bytes are input length minus final length and never negative; processed exactly when the bytes changed or a thumbnail exists; images get compressImage's and generateThumbnail's results, are labelled IMAGE_OPTIMIZATION exactly when the bytes changed and NONE otherwise, and are never compressed; non-images get compressFile's result and nothing else; the metadata holds only the eight documented keys, each present exactly for the step that wrote it, the three flags holding true, with the sizes, the thumbnail size and the compression method as values |
| Processing.OptimiseImage | src/main/java/com/bracit/fms/fms/service/FileProcessingServiceImpl.java:350-357 | the image step yields compressImage's result when enabled, never grows, and records "imageOptimized" exactly when the bytes changed |
| Processing.Thumbnail | src/main/java/com/bracit/fms/fms/service/FileProcessingServiceImpl.java:359-365 | the thumbnail step yields generateThumbnail's result when enabled, and records its entries exactly when a thumbnail exists |
| Processing.CompressOther | src/main/java/com/bracit/fms/fms/service/FileProcessingServiceImpl.java:369-381 | the compression step is compressFile on the input; when applied, it saves input minus output bytes and records the method |
| Processing.ProcessFileWithDefaults | src/main/java/com/bracit/fms/fms/service/FileProcessingServiceImpl.java:327-329 | with the default options every eligible step is attempted |
| MinioStorage.GenerateFileName | src/main/java/com/bracit/fms/fms/service/MinioFileStorageService.java:245-251 | the name starts with the id; it is the id alone for a null or dot-free name; otherwise it appends the name's suffix from its last ".", which starts with "." and holds no other "." |
| MinioStorage.FileIdRecovered | src/main/java/com/bracit/fms/fms/service/MinioFileStorageService.java:245-251 | the id of a dot-free UUID is the generated name's text before its first "." |
| MinioStorage.GeneratedNamesDistinct | src/main/java/com/bracit/fms/fms/service/MinioFileStorageService.java:245-251 | different dot-free ids never produce the same file name |
| MinioStorage.BucketName | src/main/java/com/bracit/fms/fms/service/MinioFileStorageService.java:49 | each character is lower-cased, and "_" becomes "-"; the name keeps the length, is lower-case and holds no "_" |
| MinioStorage.BucketNameIdempotent | src/main/java/com/bracit/fms/fms/service/MinioFileStorageService.java:117 | deriving a bucket from a bucket name changes nothing |
| MinioStorage.SharedBucket | src/main/java/com/bracit/fms/fms/service/MinioFileStorageService.java:164 | "profile_picture" and "Profile-Picture" share the bucket "profile-picture"; "NID" maps to "nid" |
| MinioStorage.KeysDistinct | src/main/java/com/bracit/fms/fms/service/MinioFileStorageService.java:76-84 | a file key never equals a thumbnail key |
| MinioStorage.FileKeyInjective | src/main/java/com/bracit/fms/fms/service/MinioFileStorageService.java:84 | different file names give different file keys |
| MinioStorage.ThumbnailKeyInjective | src/main/java/com/bracit/fms/fms/service/MinioFileStorageService.java:76 | different ids give different thumbnail keys |
| MinioStorage.ThumbnailFileName | src/main/java/com/bracit/fms/fms/service/MinioFileStorageService.java:206 | the thumbnail's name is "thumb_" followed by the original name |
| MinioStorage.Prepare | src/main/java/com/bracit/fms/fms/service/MinioFileStorageService.java:64-81 | a type that is not a supported image is stored as it is, without a thumbnail; for a supported image the content is compressImage's result when requested and the input otherwise, the thumbnail is generateThumbnail's result on that content when requested and absent otherwise, and an exception from either call fails the preparation |
| MinioStorage.UploadedEntity | src/main/java/com/bracit/fms/fms/service/MinioFileStorageService.java:87-98 | the record holds the id, the generated name and its key, the final content's size, a thumbnail path exactly when a thumbnail was made, and provider "minio" |
| MinioStorage.UploadedObjects | src/main/java/com/bracit/fms/fms/service/MinioFileStorageService.java:73-85 | an upload adds the file object holding the final content and, when made, the thumbnail object holding the thumbnail, both with the request's content type; no other key is added and every other object keeps its contents |
| MinioStorage.UploadKeepsRecords | src/main/java/com/bracit/fms/fms/service/MinioFileStorageService.java:73-100 | after an upload every record, new and old, still finds its objects in its bucket with the recorded size |
| MinioStorage.MinioFileStore.PrepareContent | src/main/java/com/bracit/fms/fms/service/MinioFileStorageService.java:62-81 | the in-place reassignment of content and the thumbnail computes exactly the prepared content |
| MinioStorage.MinioFileStore.UploadFile | src/main/java/com/bracit/fms/fms/service/MinioFileStorageService.java:47-107 | the bucket is created; an image-service exception leaves objects and records unchanged and fails the upload; otherwise exactly the record and objects above are stored; the store stays consistent |
| MinioStorage.MinioFileStore.DownloadFile | src/main/java/com/bracit/fms/fms/service/MinioFileStorageService.java:110-134 | empty for an unknown id; otherwise the stored object under the original name, whose length is the recorded size |
| MinioStorage.MinioFileStore.GetFileInfo | src/main/java/com/bracit/fms/fms/service/MinioFileStorageService.java:137-139 | the record, exactly when one exists |
| MinioStorage.MinioFileStore.UpdateFileInfo | src/main/java/com/bracit/fms/fms/service/MinioFileStorageService.java:142-154 | only the original name and the update time change; objects and stored names are untouched |
| MinioStorage.MinioFileStore.DeleteFile | src/main/java/com/bracit/fms/fms/service/MinioFileStorageService.java:157-187 | true exactly for a known id; removes its record, its object and its recorded thumbnail, and nothing else |
| MinioStorage.MinioFileStore.GetThumbnail | src/main/java/com/bracit/fms/fms/service/MinioFileStorageService.java:190-214 | present exactly when a thumbnail was recorded; it is the thumbnail object named "thumb_" plus the original name |
| MinioStorage.MinioFileStore.FileExists | src/main/java/com/bracit/fms/fms/service/MinioFileStorageService.java:222-225 | a file exists exactly when its record does |
| MinioStorage.UploadThenDownload | src/main/java/com/bracit/fms/fms/service/MinioFileStorageService.java:84-129 | after a successful upload, downloading gives back the stored content under the caller's file name |

## Left out

- Codec internals: GZIP (RFC 1952), PDFBox loading, stripping and saving, ImageIO decoding and Thumbnailator resizing are opaque functions. The GZIP round trip is proved only for a codec assumed lossless. Thumbnail box fitting and aspect ratio are library behaviour and are not modelled.
- Floating point: the `compressionRatio` percentage and `getAspectRatio` are not kept. Float and double rounding exactly at the 15% and 10% boundaries is not claimed to match the integer inequalities.
- Character case: `toLowerCase` and `toUpperCase` are modelled for ASCII letters only. The default locale (for example Turkish dotted i) and non-ASCII letters are not modelled. `Character.isWhitespace` is modelled on ASCII.
- Compression.ExpectedReason: `String.format("%.1f")` is written for whole percentages in a "." decimal locale only.
- Compression.GetCompressionRecommendation: a null content type throws NullPointerException in the source; the model takes a non-null type.
- LegacyImaging: null image data or a null content type throws NullPointerException in the source; the model takes non-null values.
- MinioStorage.MinioFileStore.UploadFile: the request's content type, content and file type are taken as non-null. `fileId` is required to contain no "."; a random UUID never does.
- Compression.NoCompression: the builder leaves `metadata` null; the model holds an empty map there.
- Logging and the messages of rethrown exceptions are not modelled. Only whether an exception escapes is kept, and the fixed "Failed to upload file to MinIO" of the upload.
- The MinIO client never fails in the model: bucket, put, get and remove calls succeed. A network failure, and the partial state it could leave, is not modelled. So `DownloadFile` and `GetThumbnail` return empty on a missing object, which a consistent store never has.
- The JPA repository is a map holding only this adapter's records. It is shared with the other providers' records in the real database, and its column constraints (non-null original name) are not modelled.
- `listFiles` is not modelled: it only copies every record in the repository's order.
- `getProviderName` is not modelled: it only returns the constant `Provider`.
- Timestamps come from the caller as plain integers; `LocalDateTime.now()` is not modelled.
- `ProcessingOptions.thumbnailSize` and `imageQuality` are kept but never read, as in `processFile`.
- The `file.storage.compression` settings `minSavingsThreshold` and `maxFileSizeBytes` are never read by the code and are not modelled. The 15% and 100 MiB constants are hard-coded.
- The S3, Azure, GCS and local storage adapters are not modelled. Their `generateFileName` is identical to MinIO's.
- The HTTP controller and `FmsApplication` bootstrap are not modelled.
- `FileCompressionServiceImpl` and `FileProcessingServiceImpl` carry the same compression code; it is modelled once, in `Compression`.

=== FILE: common.dfy ===
/** Values shared by every part of the model: nullable references, byte
    payloads, the outcome of a call that may throw, and the handful of
    java.lang.String operations the engine uses, restricted to ASCII. */
module Common {

  /** A Java reference that may be null: `None` is null. */
  datatype Option<+T> = None | Some(value: T)

  newtype byte = x: int | 0 <= x < 256

  /** The contents of a Java `byte[]`. */
  type Bytes = seq<byte>

  /** The outcome of a call into a library the model does not look inside:
      a value, an IOException, or any other (unchecked) exception. */
  datatype Attempt<+T> = Ok(value: T) | IoError | Fault(message: string)

  /** The outcome of one of the system's own methods once its catch blocks
      have run: it returns, or an exception escapes it. */
  datatype Outcome<+T> = Returned(value: T) | Threw(message: string)

  // ---------- java.lang.String, ASCII only ----------

  predicate StartsWith(s: string, prefix: string) {
    prefix <= s
  }

  /** `s.contains(t)`: t occurs somewhere inside s. */
  predicate Contains(s: string, t: string)
    decreases |s|
  {
    StartsWith(s, t) || (|s| > 0 && Contains(s[1..], t))
  }

  lemma {:induction false} ContainsAt(s: string, t: string, i: nat)
    requires i + |t| <= |s| && s[i..i + |t|] == t
    ensures Contains(s, t)
  {
    if i == 0 {
      assert s[..|t|] == t;
    } else {
      assert s[1..][i - 1..i - 1 + |t|] == s[i..i + |t|];
      ContainsAt(s[1..], t, i - 1);
    }
  }

  /** `s.contains(c)` for a one-character string is membership of c. */
  lemma {:induction false} ContainsChar(s: string, c: char)
    ensures Contains(s, [c]) <==> c in s
  {
    if |s| > 0 {
      ContainsChar(s[1..], c);
      assert s == [s[0]] + s[1..];
    }
  }

  /** A string contains only strings made of its own characters. */
  lemma {:induction false} ContainsOnlyItsChars(s: string, t: string)
    ensures Contains(s, t) ==> forall c :: c in t ==> c in s
  {
    if Contains(s, t) && !StartsWith(s, t) {
      ContainsOnlyItsChars(s[1..], t);
      assert forall c :: c in s[1..] ==> c in s;
    }
  }

  lemma MissingCharNotContained(s: string, t: string, c: char)
    requires c in t && c !in s
    ensures !Contains(s, t)
  {
    ContainsOnlyItsChars(s, t);
  }

  function LowerChar(c: char): char {
    if 'A' <= c <= 'Z' then (c as int + 32) as char else c
  }

  function UpperChar(c: char): char {
    if 'a' <= c <= 'z' then (c as int - 32) as char else c
  }

  /** `s.toLowerCase()` for ASCII letters. */
  function Lower(s: string): (r: string)
    ensures |r| == |s|
    ensures forall i :: 0 <= i < |s| ==> r[i] == LowerChar(s[i])
  {
    seq(|s|, i requires 0 <= i < |s| => LowerChar(s[i]))
  }

  /** `s.toUpperCase()` for ASCII letters. */
  function Upper(s: string): (r: string)
    ensures |r| == |s|
    ensures forall i :: 0 <= i < |s| ==> r[i] == UpperChar(s[i])
  {
    seq(|s|, i requires 0 <= i < |s| => UpperChar(s[i]))
  }

  predicate IsLowerCase(s: string) {
    forall i :: 0 <= i < |s| ==> !('A' <= s[i] <= 'Z')
  }

  lemma LowerIsLowerCase(s: string)
    ensures IsLowerCase(Lower(s))
    ensures Lower(Lower(s)) == Lower(s)
  {
  }

  lemma LowerOfLowerCase(s: string)
    ensures IsLowerCase(s) ==> Lower(s) == s
  {
  }

  /** Character.isWhitespace, restricted to ASCII. */
  predicate IsWhitespace(c: char) {
    c == ' ' || c == '\t' || c == '\n' || c == '\U{B}' || c == '\U{C}' || c == '\r'
    || ('\U{1C}' <= c <= '\U{1F}')
  }

  /** Spring's StringUtils.hasText on a non-null string. */
  predicate HasText(s: string) {
    exists i :: 0 <= i < |s| && !IsWhitespace(s[i])
  }

  /** `s.indexOf(c)`: the first position of c, or -1. */
  function IndexOf(s: string, c: char): (i: int)
    ensures -1 <= i < |s|
    ensures 0 <= i ==> s[i] == c
    ensures forall k :: 0 <= k < |s| && (i == -1 || k < i) ==> s[k] != c
  {
    if |s| == 0 then -1
    else if s[0] == c then 0
    else
      var j := IndexOf(s[1..], c);
      if j < 0 then -1 else j + 1
  }

  /** `s.lastIndexOf(c)`: the last position of c, or -1. */
  function LastIndexOf(s: string, c: char): (i: int)
    ensures -1 <= i < |s|
    ensures 0 <= i ==> s[i] == c
    ensures forall k :: i < k < |s| ==> s[k] != c
  {
    if |s| == 0 then -1
    else if s[|s| - 1] == c then |s| - 1
    else LastIndexOf(s[..|s| - 1], c)
  }

  /** `s.replace(a, b)` for one-character strings a and b. */
  function ReplaceChar(s: string, a: char, b: char): (r: string)
    ensures |r| == |s|
    ensures forall i :: 0 <= i < |s| ==> r[i] == if s[i] == a then b else s[i]
  {
    seq(|s|, i requires 0 <= i < |s| => if s[i] == a then b else s[i])
  }

  /** `String.valueOf(n)` for a non-negative int. */
  function DecimalString(n: nat): (r: string)
    ensures |r| > 0
    ensures forall i :: 0 <= i < |r| ==> '0' <= r[i] <= '9'
    ensures n < 10 ==> r == [(n + '0' as int) as char]
    ensures n >= 10 ==> r == DecimalString(n / 10) + [(n % 10 + '0' as int) as char]
  {
    var d := [(n % 10 + '0' as int) as char];
    if n < 10 then d else DecimalString(n / 10) + d
  }

  function Min(a: int, b: int): int {
    if a <= b then a else b
  }
}

=== FILE: compression.dfy ===
/** Generic compression: the pre-flight guards, the PDF and GZIP paths with
    their 15% acceptance rule, decompression by method tag, and the
    recommendation table (FileCompressionServiceImpl, and the same code
    copied into FileProcessingServiceImpl). */
module Compression {
  import opened Common
  import opened Library

  /** 100 MiB: larger payloads are never compressed. */
  const MaxCompressionSize: int := 100 * 1024 * 1024
  const PdfContentType: string := "application/pdf"
  /** The Word (.docx) type, spelled around the "xml" it contains. */
  const WordDocumentType: string :=
    "application/vnd.open" + "xml" + "formats-officedocument.wordprocessingml.document"
  /** A compressed result must save at least this percentage. */
  const MinSavingsPercent: int := 15

  /** Types that compress well; compressFile routes them exactly like
      unknown types. */
  const CompressibleTypes: set<string> := {
    "text/plain", "text/html", "text/css", "text/javascript",
    "application/json", "application/xml", "text/xml",
    "application/csv", "text/csv",
    "application/rtf", "application/vnd.ms-excel", WordDocumentType,
    "application/vnd.openxmlformats-officedocument.spreadsheetml.sheet",
    "application/vnd.openxmlformats-officedocument.presentationml.presentation"
  }

  /** Already-compressed media, never attempted. */
  const NonCompressibleTypes: set<string> := {
    "image/jpeg", "image/png", "image/gif", "image/webp",
    "video/mp4", "video/avi", "video/mkv",
    "audio/mp3", "audio/aac", "audio/ogg",
    "application/zip", "application/rar", "application/7z",
    "application/gzip", "application/x-tar"
  }

  const MethodNames: set<string> := {"GZIP", "PDF_OPTIMIZATION"}

  /** CompressionResultImpl; the floating-point compressionRatio is not kept. */
  datatype CompressionResult = CompressionResult(
    compressedData: Option<Bytes>,
    originalSize: int,
    compressedSize: int,
    methodName: string,
    compressed: bool,
    reason: Option<string>,
    metadata: map<string, string>
  ) {
    function SavedBytes(): int {
      if compressed then originalSize - compressedSize else 0
    }

    /** What every result the service hands out satisfies. */
    predicate Valid() {
      && (compressed ==>
            && compressedData.Some?
            && |compressedData.value| == compressedSize
            && IsCompressionWorthwhile(originalSize, compressedSize)
            && methodName in MethodNames
            && SavedBytes() == originalSize - compressedSize > 0)
      && (!compressed ==> methodName == "NONE" && SavedBytes() == 0)
    }
  }

  /** CompressionResultImpl.noCompression: only the flag, reason, ratio and
      method are set; data stays null and both sizes stay 0. */
  function NoCompression(reason: string): (r: CompressionResult)
    ensures r.Valid() && !r.compressed && r.methodName == "NONE" && r.reason == Some(reason)
    ensures r.compressedData.None? && r.originalSize == 0 && r.compressedSize == 0
    ensures r.metadata == map[]
  {
    CompressionResult(None, 0, 0, "NONE", false, Some(reason), map[])
  }

  /** `1 - compressed/original >= 0.15` with compressed < original, in exact
      integer arithmetic. */
  predicate IsCompressionWorthwhile(originalSize: int, compressedSize: int) {
    compressedSize < originalSize
    && 100 * (originalSize - compressedSize) >= MinSavingsPercent * originalSize
  }

  lemma WorthwhileBounds(originalSize: int, compressedSize: int)
    requires 0 <= compressedSize
    ensures IsCompressionWorthwhile(originalSize, compressedSize) <==>
              (0 < originalSize && 100 * compressedSize <= 85 * originalSize)
  {
  }

  predicate IsTextBasedFile(contentType: Option<string>) {
    && contentType.Some?
    && (|| StartsWith(contentType.value, "text/")
        || Contains(contentType.value, "json")
        || Contains(contentType.value, "xml")
        || Contains(contentType.value, "csv"))
  }

  /** The types estimateCompressionSavings lists by name. */
  const EstimatedTypes: set<string> := {
    "text/plain", "text/html", "text/css", "application/json", "application/xml", PdfContentType,
    WordDocumentType
  }

  /** The JSON, XML and Word types are text-based by their "json" and "xml"
      infixes. */
  lemma NamedTypeTextBased(contentType: string)
    requires contentType in {"application/json", "application/xml", WordDocumentType}
    ensures IsTextBasedFile(Some(contentType))
  {
    if contentType == "application/json" {
      ContainsAt(contentType, "json", 12);
    } else if contentType == "application/xml" {
      ContainsAt(contentType, "xml", 12);
    } else {
      var prefix := "application/vnd.open";
      assert |prefix| == 20;
      assert contentType[20..23] == "xml";
      ContainsAt(contentType, "xml", 20);
    }
  }

  /** A PDF has no 'j', 'x' or 's' to spell the infixes. */
  lemma PdfLacksInfixes(contentType: string)
    requires contentType == "application/pdf"
    ensures !Contains(contentType, "json") && !Contains(contentType, "xml") && !Contains(contentType, "csv")
  {
    MissingCharNotContained(contentType, "json", 'j');
    MissingCharNotContained(contentType, "xml", 'x');
    MissingCharNotContained(contentType, "csv", 's');
  }

  /** ... nor does it start with "text/", so it is not text-based. */
  lemma PdfNotTextBased(contentType: string)
    requires contentType == PdfContentType
    ensures !IsTextBasedFile(Some(contentType))
  {
    PdfLacksInfixes(contentType);
    assert contentType[0] != "text/"[0];
  }

  /** Every text-based type is estimated at 50% or more; of the other types
      only a PDF is estimated above the 20% default. */
  lemma {:induction false} TextBasedEstimate(contentType: string)
    ensures !IsTextBasedFile(None)
    ensures IsTextBasedFile(Some(contentType)) ==> EstimateCompressionSavings(contentType) >= 50
    ensures !IsTextBasedFile(Some(contentType)) ==>
              EstimateCompressionSavings(contentType) == (if contentType == PdfContentType then 25 else 20)
  {
    if contentType in {"text/plain", "text/html", "text/css"} {
      assert StartsWith(contentType, "text/");
    } else if contentType in {"application/json", "application/xml", WordDocumentType} {
      NamedTypeTextBased(contentType);
    } else if contentType == PdfContentType {
      PdfNotTextBased(contentType);
    }
  }

  /** Expected savings as an integer percentage. */
  function EstimateCompressionSavings(contentType: string): (p: int)
    ensures p in {70, 80, 25, 60, 50, 20}
    ensures p > MinSavingsPercent
    ensures p == 25 <==> contentType == PdfContentType
    ensures contentType in {"text/plain", "text/html", "text/css"} ==> p == 70
    ensures contentType in {"application/json", "application/xml"} ==> p == 80
    ensures contentType == WordDocumentType ==> p == 60
    ensures contentType !in EstimatedTypes ==> p == (if IsTextBasedFile(Some(contentType)) then 50 else 20)
  {
    if contentType in {"text/plain", "text/html", "text/css"} then 70
    else if contentType in {"application/json", "application/xml"} then 80
    else if contentType == PdfContentType then 25
    else if contentType == WordDocumentType then 60
    else if IsTextBasedFile(Some(contentType)) then 50
    else 20
  }

  datatype CompressionRecommendation = CompressionRecommendation(
    recommended: bool,
    reason: string,
    expectedSavings: int,
    methodName: string
  )

  /** The reason text `"Expected " + format("%.1f", savings * 100) + "% reduction"`;
      every table entry is a whole percentage. */
  function ExpectedReason(percent: nat): string {
    "Expected " + DecimalString(percent) + ".0% reduction"
  }

  function GetCompressionRecommendation(contentType: string, fileSize: int): (r: CompressionRecommendation)
    ensures fileSize > MaxCompressionSize ==>
              r == CompressionRecommendation(false, "File too large", 0, "NONE")
    ensures fileSize <= MaxCompressionSize && contentType in NonCompressibleTypes ==>
              r == CompressionRecommendation(false, "File type already compressed", 0, "NONE")
    ensures fileSize <= MaxCompressionSize && contentType !in NonCompressibleTypes ==>
              && r.methodName == (if contentType == PdfContentType then "PDF_OPTIMIZATION" else "GZIP")
              && r.expectedSavings == EstimateCompressionSavings(contentType)
              && r.reason == ExpectedReason(r.expectedSavings)
    ensures r.recommended <==> r.expectedSavings > MinSavingsPercent
  {
    if fileSize > MaxCompressionSize then
      CompressionRecommendation(false, "File too large", 0, "NONE")
    else if contentType in NonCompressibleTypes then
      CompressionRecommendation(false, "File type already compressed", 0, "NONE")
    else
      var name := if PdfContentType == contentType then "PDF_OPTIMIZATION" else "GZIP";
      var expected := EstimateCompressionSavings(contentType);
      CompressionRecommendation(expected > MinSavingsPercent, ExpectedReason(expected), expected, name)
  }

  /** Because every table entry exceeds the threshold, the recommendation is
      positive exactly when neither guard fires, and exactly when a method
      other than NONE is named. */
  lemma RecommendationCharacterised(contentType: string, fileSize: int)
    ensures var r := GetCompressionRecommendation(contentType, fileSize);
            && (r.recommended <==> fileSize <= MaxCompressionSize && contentType !in NonCompressibleTypes)
            && (r.recommended <==> r.methodName != "NONE")
            && (r.methodName == "PDF_OPTIMIZATION" <==> r.recommended && contentType == PdfContentType)
  {
  }

  /** FileCompressionService.isCompressionRecommended (and the identical
      default in FileProcessingService): the recommendation at size 0. */
  predicate IsCompressionRecommended(contentType: string) {
    GetCompressionRecommendation(contentType, 0).recommended
  }

  /** getEstimatedCompressionRatio: the expected savings at size 0. */
  function GetEstimatedCompressionRatio(contentType: string): (p: int)
    ensures p == 0 <==> contentType in NonCompressibleTypes
    ensures p != 0 ==> p == EstimateCompressionSavings(contentType)
  {
    GetCompressionRecommendation(contentType, 0).expectedSavings
  }

  /** At size 0 the size guard never decides: a type is recommended exactly
      when it is not on the already-compressed list. */
  lemma RecommendedIffCompressible(contentType: string)
    ensures IsCompressionRecommended(contentType) <==> contentType !in NonCompressibleTypes
    ensures IsCompressionRecommended(contentType) <==> GetEstimatedCompressionRatio(contentType) > 0
  {
  }

  /** compressGeneral: GZIP at best compression, kept only if worthwhile; an
      IOException becomes "GZIP compression failed", anything else escapes. */
  function CompressGeneral(codecs: Codecs, data: Bytes): (r: Outcome<CompressionResult>)
    ensures r.Returned? ==> r.value.Valid()
    ensures r.Returned? && r.value.compressed ==>
              r.value.methodName == "GZIP" && r.value.originalSize == |data|
              && codecs.gzip(data) == Ok(r.value.compressedData.value)
    ensures r.Threw? <==> codecs.gzip(data).Fault?
    ensures codecs.gzip(data).Ok? && IsCompressionWorthwhile(|data|, |codecs.gzip(data).value|) ==>
              r.Returned? && r.value.compressed && r.value.compressedData == Some(codecs.gzip(data).value)
    ensures codecs.gzip(data).Ok? && !IsCompressionWorthwhile(|data|, |codecs.gzip(data).value|) ==>
              r == Returned(NoCompression("GZIP compression not beneficial"))
    ensures codecs.gzip(data).IoError? ==> r == Returned(NoCompression("GZIP compression failed"))
  {
    match codecs.gzip(data)
    case Ok(packed) =>
      if IsCompressionWorthwhile(|data|, |packed|) then
        Returned(CompressionResult(Some(packed), |data|, |packed|, "GZIP", true, None,
                                   map["algorithm" := "GZIP", "level" := "BEST_COMPRESSION"]))
      else
        Returned(NoCompression("GZIP compression not beneficial"))
    case IoError => Returned(NoCompression("GZIP compression failed"))
    case Fault(m) => Threw(m)
  }

  /** compressPDF: PDFBox optimisation kept only if worthwhile; an IOException
      from PDFBox falls back to GZIP on the original bytes. */
  function CompressPdf(codecs: Codecs, data: Bytes): (r: Outcome<CompressionResult>)
    ensures r.Returned? ==> r.value.Valid()
    ensures r.Returned? && r.value.compressed ==> r.value.originalSize == |data|
    ensures r.Returned? && r.value.methodName == "PDF_OPTIMIZATION" ==>
              codecs.pdfOptimize(data).Ok? && codecs.pdfOptimize(data).value.bytes == r.value.compressedData.value
    ensures codecs.pdfOptimize(data).IoError? ==> r == CompressGeneral(codecs, data)
    ensures codecs.pdfOptimize(data).Ok? && IsCompressionWorthwhile(|data|, |codecs.pdfOptimize(data).value.bytes|) ==>
              && r.Returned? && r.value.compressed && r.value.methodName == "PDF_OPTIMIZATION"
              && r.value.compressedData == Some(codecs.pdfOptimize(data).value.bytes)
    ensures codecs.pdfOptimize(data).Ok? && !IsCompressionWorthwhile(|data|, |codecs.pdfOptimize(data).value.bytes|) ==>
              r == Returned(NoCompression("PDF compression not beneficial"))
    ensures r.Threw? <==> codecs.pdfOptimize(data).Fault? || (codecs.pdfOptimize(data).IoError? && codecs.gzip(data).Fault?)
  {
    match codecs.pdfOptimize(data)
    case Ok(saved) =>
      if IsCompressionWorthwhile(|data|, |saved.bytes|) then
        Returned(CompressionResult(Some(saved.bytes), |data|, |saved.bytes|, "PDF_OPTIMIZATION", true, None,
                                   map["pages" := DecimalString(saved.pages),
                                       "technique" := "PDFBox 3.0 optimization",
                                       "defaultCompression" := "enabled"]))
      else
        Returned(NoCompression("PDF compression not beneficial"))
    case IoError => CompressGeneral(codecs, data)
    case Fault(m) => Threw(m)
  }

  /** compressFile. A null content type reaches `Set.contains(null)`, whose
      NullPointerException (message null) is caught like any other. */
  function CompressFile(codecs: Codecs, data: Option<Bytes>, contentType: Option<string>): (r: CompressionResult)
    ensures r.Valid()
    ensures data.None? || |data.value| == 0 ==> r == NoCompression("Empty file")
    ensures data.Some? && |data.value| > MaxCompressionSize ==>
              r == NoCompression("File too large for compression")
    ensures data.Some? && 0 < |data.value| <= MaxCompressionSize && contentType.Some?
            && contentType.value in NonCompressibleTypes ==>
              r == NoCompression("File type already compressed")
    ensures r.compressed ==>
              && data.Some? && r.originalSize == |data.value|
              && contentType.Some? && contentType.value !in NonCompressibleTypes
    ensures r.methodName == "PDF_OPTIMIZATION" ==> contentType == Some(PdfContentType)
    ensures data.Some? && 0 < |data.value| <= MaxCompressionSize && contentType.None? ==>
              r == NoCompression("Compression failed: null")
    ensures data.Some? && 0 < |data.value| <= MaxCompressionSize && contentType.Some?
            && contentType.value !in NonCompressibleTypes ==>
              var attempt := if contentType.value == PdfContentType then CompressPdf(codecs, data.value)
                             else CompressGeneral(codecs, data.value);
              && (attempt.Returned? ==> r == attempt.value)
              && (attempt.Threw? ==> r == NoCompression("Compression failed: " + attempt.message))
  {
    if data.None? || |data.value| == 0 then NoCompression("Empty file")
    else if |data.value| > MaxCompressionSize then NoCompression("File too large for compression")
    else if contentType.None? then NoCompression("Compression failed: null")
    else if contentType.value in NonCompressibleTypes then NoCompression("File type already compressed")
    else
      var attempt :=
        if PdfContentType == contentType.value then CompressPdf(codecs, data.value)
        else if contentType.value in CompressibleTypes || IsTextBasedFile(contentType) then CompressGeneral(codecs, data.value)
        else CompressGeneral(codecs, data.value);
      match attempt
      case Returned(result) => result
      case Threw(m) => NoCompression("Compression failed: " + m)
  }

  /** The guards run before any compressor: when one fires, the result is the
      same whatever the codecs do. */
  lemma GuardsCallNoCompressor(c1: Codecs, c2: Codecs, data: Option<Bytes>, contentType: Option<string>)
    requires || data.None? || |data.value| == 0 || |data.value| > MaxCompressionSize
             || contentType.None? || contentType.value in NonCompressibleTypes
    ensures CompressFile(c1, data, contentType) == CompressFile(c2, data, contentType)
    ensures !CompressFile(c1, data, contentType).compressed
  {
  }

  /** Past the guards only "PDF or not" matters: the compressible list, the
      text test and the unknown-type fallback all call the same GZIP path. */
  lemma {:induction false} NonPdfRouting(codecs: Codecs, data: Bytes, contentType: string)
    requires 0 < |data| <= MaxCompressionSize
    requires contentType !in NonCompressibleTypes && contentType != PdfContentType
    ensures CompressFile(codecs, Some(data), Some(contentType)) ==
              match CompressGeneral(codecs, data)
              case Returned(result) => result
              case Threw(m) => NoCompression("Compression failed: " + m)
  {
  }

  /** A PDF that PDFBox cannot parse is compressed by GZIP as if it were any
      other type; the exclusion list is not consulted again. */
  lemma PdfParseFailureFallsBackToGzip(codecs: Codecs, data: Bytes, other: string)
    requires 0 < |data| <= MaxCompressionSize
    requires codecs.pdfOptimize(data).IoError?
    requires other !in NonCompressibleTypes && other != PdfContentType
    ensures CompressFile(codecs, Some(data), Some(PdfContentType)) ==
              CompressFile(codecs, Some(data), Some(other))
  {
  }

  /** decompressFile: the tag is upper-cased; only GZIP transforms, and any
      failure returns the input as it is. */
  function DecompressFile(codecs: Codecs, data: Option<Bytes>, compressionMethod: Option<string>): (r: Option<Bytes>)
    ensures data.None? || compressionMethod.None? ==> r == data
    ensures r != data ==>
              && data.Some? && compressionMethod.Some? && Upper(compressionMethod.value) == "GZIP"
              && r.Some? && codecs.gunzip(data.value) == Ok(r.value)
    ensures data.Some? && compressionMethod.Some? && Upper(compressionMethod.value) == "GZIP"
            && codecs.gunzip(data.value).Ok? ==>
              r == Some(codecs.gunzip(data.value).value)
  {
    if data.None? || compressionMethod.None? then data
    else
      match Upper(compressionMethod.value)
      case "GZIP" =>
        (match codecs.gunzip(data.value)
         case Ok(plain) => Some(plain)
         case _ => data)
      case "PDF_OPTIMIZATION" => data
      case _ => data
  }

  lemma DecompressIgnoresCase(codecs: Codecs, data: Option<Bytes>, m1: string, m2: string)
    requires Upper(m1) == Upper(m2)
    ensures DecompressFile(codecs, data, Some(m1)) == DecompressFile(codecs, data, Some(m2))
  {
  }

  /** The codec pair inverts: whatever gzip produces, gunzip restores. */
  ghost predicate Lossless(codecs: Codecs) {
    forall b :: codecs.gzip(b).Ok? ==> codecs.gunzip(codecs.gzip(b).value) == Ok(b)
  }

  /** Round trip: a GZIP result decompresses, with its own tag, to the bytes
      that went in (given a lossless codec); a PDF_OPTIMIZATION result comes
      back as the optimised document, not the original. */
  lemma {:induction false} CompressDecompressRoundTrip(codecs: Codecs, data: Bytes, contentType: string)
    requires Lossless(codecs)
    ensures var r := CompressFile(codecs, Some(data), Some(contentType));
            && (r.compressed && r.methodName == "GZIP" ==>
                  DecompressFile(codecs, r.compressedData, Some(r.methodName)) == Some(data))
            && (r.compressed && r.methodName == "PDF_OPTIMIZATION" ==>
                  DecompressFile(codecs, r.compressedData, Some(r.methodName)) == r.compressedData)
  {
    var r := CompressFile(codecs, Some(data), Some(contentType));
    if r.compressed && r.methodName == "GZIP" {
      assert codecs.gzip(data) == Ok(r.compressedData.value) by {
        if contentType == PdfContentType {
          assert CompressPdf(codecs, data) == Returned(r);
          assert codecs.pdfOptimize(data).IoError?;
        } else {
          assert CompressGeneral(codecs, data) == Returned(r);
        }
      }
      assert Upper("GZIP") == "GZIP";
    }
    if r.compressed && r.methodName == "PDF_OPTIMIZATION" {
      assert Upper("PDF_OPTIMIZATION") == "PDF_OPTIMIZATION";
    }
  }
}

=== FILE: imaging.dfy ===
/** Image decisions of the unified processing service
    (FileProcessingServiceImpl): MIME classification, output format and
    quality, the 10000-pixel gate, the 10% acceptance rule for re-encodings,
    thumbnails and metadata. */
module Imaging {
  import opened Common
  import opened Library

  const MaxImageWidth: int := 10000
  const MaxImageHeight: int := 10000
  /** Formats the engine itself can handle; configuration only narrows this. */
  const SupportedImageFormats: set<string> := {"jpg", "jpeg", "png", "gif", "bmp", "webp"}
  /** Formats for which an output quality is applied. */
  const LossyFormats: set<string> := {"jpg", "jpeg", "webp"}
  /** A re-encoded image must save at least this percentage. */
  const MinImageSavingsPercent: int := 10
  /** Output quality of every thumbnail in a lossy format, in hundredths. */
  const ThumbnailQuality: int := 85

  /** Case-insensitive "image/" prefix test on a non-blank type. */
  predicate IsImageFile(contentType: Option<string>) {
    contentType.Some? && HasText(contentType.value) && StartsWith(Lower(contentType.value), "image/")
  }

  /** The blank-text test is implied by the prefix test. */
  lemma IsImageFileByPrefix(contentType: Option<string>)
    ensures IsImageFile(contentType) <==>
              contentType.Some? && StartsWith(Lower(contentType.value), "image/")
  {
    if contentType.Some? && StartsWith(Lower(contentType.value), "image/") {
      var s := contentType.value;
      assert Lower(s)[0] == 'i';
      assert !IsWhitespace(s[0]);
    }
  }

  /** The lower-cased text after the first "/", or "" when there is none. */
  function ExtractFormat(contentType: Option<string>): (f: string)
    ensures IsLowerCase(f)
    ensures contentType.None? || '/' !in contentType.value ==> f == ""
    ensures contentType.Some? && HasText(contentType.value) && '/' in contentType.value ==>
              exists i :: 0 <= i < |contentType.value| && contentType.value[i] == '/'
                          && '/' !in contentType.value[..i] && f == Lower(contentType.value[i + 1..])
  {
    if contentType.None? || !HasText(contentType.value) || '/' !in contentType.value then ""
    else
      var s := contentType.value;
      var i := IndexOf(s, '/');
      LowerIsLowerCase(s[i + 1..]);
      assert '/' !in s[..i] by {
        forall k | 0 <= k < i ensures s[..i][k] != '/' { }
      }
      Lower(s[i + 1..])
  }

  /** Supported only if the subtype is both configured and built in. */
  predicate IsSupportedImageFormat(settings: ImageSettings, contentType: Option<string>) {
    && IsImageFile(contentType)
    && var format := ExtractFormat(contentType);
       format in settings.allowedFormats && format in SupportedImageFormats
  }

  /** On a type whose lower-cased text starts with "image/", the first "/" is
      the sixth character, so the subtype is the lower-cased rest. */
  lemma SubtypeAfterPrefix(contentType: string)
    requires StartsWith(Lower(contentType), "image/")
    ensures ExtractFormat(Some(contentType)) == Lower(contentType[6..])
  {
    var s := contentType;
    assert Lower(s)[5] == '/' && LowerChar(s[5]) == '/';
    assert forall k :: 0 <= k < 5 ==> LowerChar(s[k]) == "image"[k] && s[k] != '/';
    assert !IsWhitespace(s[0]);
    assert IndexOf(s, '/') == 5;
  }

  /** A type is supported exactly when it starts with "image/" in any letter
      case and its lower-cased subtype is both configured and built in. */
  lemma {:induction false} SupportedBySubtype(settings: ImageSettings, contentType: string)
    ensures IsSupportedImageFormat(settings, Some(contentType)) <==>
              && StartsWith(Lower(contentType), "image/")
              && Lower(contentType[6..]) in settings.allowedFormats
              && Lower(contentType[6..]) in SupportedImageFormats
  {
    IsImageFileByPrefix(Some(contentType));
    if StartsWith(Lower(contentType), "image/") {
      SubtypeAfterPrefix(contentType);
    }
  }

  /** getOptimalOutputFormat. */
  function OutputFormat(contentType: Option<string>): (f: string)
    ensures IsLowerCase(f)
    ensures f != "jpeg" && f != "svg+xml"
    ensures ExtractFormat(contentType) == "jpeg" ==> f == "jpg"
    ensures ExtractFormat(contentType) == "svg+xml" ==> f == "png"
    ensures ExtractFormat(contentType) !in {"jpeg", "svg+xml"} ==> f == ExtractFormat(contentType)
  {
    var format := ExtractFormat(contentType);
    if format == "jpeg" then "jpg"
    else if format == "svg+xml" then "png"
    else format
  }

  /** getOptimalQuality, in hundredths. */
  function OptimalQuality(settings: ImageSettings, contentType: Option<string>): (q: int)
    ensures ExtractFormat(contentType) in {"jpeg", "jpg"} ==> q == settings.quality
    ensures ExtractFormat(contentType) == "webp" ==> q == Min(settings.quality + 10, 100)
    ensures ExtractFormat(contentType) !in LossyFormats ==> q == 100
  {
    match ExtractFormat(contentType)
    case "jpeg" | "jpg" => settings.quality
    case "webp" => Min(settings.quality + 10, 100)
    case _ => 100
  }

  /** The quality handed to the encoder: only for a lossy output format. */
  function RequestedQuality(quality: int, format: string): (q: Option<int>)
    ensures IsLowerCase(format) ==> (q.Some? <==> format in LossyFormats)
    ensures q.Some? ==> q.value == quality
  {
    LowerOfLowerCase(format);
    if Lower(format) in LossyFormats then Some(quality) else None
  }

  /** `1 - compressed/original >= 0.1` with compressed < original. */
  predicate IsImageCompressionWorthwhile(originalSize: int, compressedSize: int) {
    compressedSize < originalSize && 10 * (originalSize - compressedSize) >= originalSize
  }

  predicate WithinDimensions(image: Raster) {
    image.width <= MaxImageWidth && image.height <= MaxImageHeight
  }

  /** readAndValidateImage: undecodable or oversize images read as null. */
  function ReadAndValidateImage(codecs: Codecs, data: Bytes): (r: Attempt<Option<Raster>>)
    ensures r.Ok? && r.value.Some? <==>
              codecs.decode(data).Ok? && codecs.decode(data).value.Some? && WithinDimensions(codecs.decode(data).value.value)
    ensures r.Ok? && r.value.Some? ==> r.value == codecs.decode(data).value
    ensures r.IoError? <==> codecs.decode(data).IoError?
  {
    match codecs.decode(data)
    case Ok(None) => Ok(None)
    case Ok(Some(image)) => if WithinDimensions(image) then Ok(Some(image)) else Ok(None)
    case IoError => IoError
    case Fault(m) => Fault(m)
  }

  /** compressImage: the input comes back unchanged unless a full-scale
      re-encoding of a decodable, in-bounds image is at least 10% smaller. */
  function CompressImage(settings: ImageSettings, codecs: Codecs, data: Option<Bytes>, contentType: Option<string>): (r: Option<Bytes>)
    ensures !settings.compressionEnabled || data.None? || |data.value| == 0 ==> r == data
    ensures r.Some? <==> data.Some?
    ensures settings.compressionEnabled && data.Some? && |data.value| > 0
            && ReadAndValidateImage(codecs, data.value).Ok? && ReadAndValidateImage(codecs, data.value).value.Some? ==>
              var encoded := codecs.render(ReadAndValidateImage(codecs, data.value).value.value,
                                           RenderSpec(FullScale, OutputFormat(contentType),
                                                      RequestedQuality(OptimalQuality(settings, contentType), OutputFormat(contentType))));
              encoded.Ok? && IsImageCompressionWorthwhile(|data.value|, |encoded.value|) ==> r == Some(encoded.value)
    ensures r != data ==>
              && data.Some? && IsImageCompressionWorthwhile(|data.value|, |r.value|)
              && ReadAndValidateImage(codecs, data.value).Ok?
              && ReadAndValidateImage(codecs, data.value).value.Some?
              && codecs.render(ReadAndValidateImage(codecs, data.value).value.value,
                               RenderSpec(FullScale, OutputFormat(contentType),
                                          RequestedQuality(OptimalQuality(settings, contentType), OutputFormat(contentType))))
                 == Ok(r.value)
  {
    if !settings.compressionEnabled || data.None? || |data.value| == 0 then data
    else
      match ReadAndValidateImage(codecs, data.value)
      case Ok(Some(image)) =>
        var format := OutputFormat(contentType);
        var quality := OptimalQuality(settings, contentType);
        (match codecs.render(image, RenderSpec(FullScale, format, RequestedQuality(quality, format)))
         case Ok(encoded) =>
           if IsImageCompressionWorthwhile(|data.value|, |encoded|) then Some(encoded) else data
         case _ => data)
      case _ => data
  }

  /** The dimension gate: an image wider or taller than 10000 pixels is never
      re-encoded; exactly 10000 passes. */
  lemma {:induction false} OversizeImageUnchanged(settings: ImageSettings, codecs: Codecs, data: Bytes, contentType: Option<string>)
    requires codecs.decode(data).Ok? && codecs.decode(data).value.Some?
    requires var image := codecs.decode(data).value.value;
             image.width > MaxImageWidth || image.height > MaxImageHeight
    ensures CompressImage(settings, codecs, Some(data), contentType) == Some(data)
  {
  }

  lemma {:induction false} BoundaryImageAccepted(settings: ImageSettings, codecs: Codecs, data: Bytes, contentType: Option<string>, encoded: Bytes)
    requires settings.compressionEnabled && |data| > 0
    requires codecs.decode(data).Ok? && codecs.decode(data).value.Some?
    requires var image := codecs.decode(data).value.value;
             && image.width == MaxImageWidth && image.height == MaxImageHeight
             && codecs.render(image, RenderSpec(FullScale, OutputFormat(contentType),
                                                RequestedQuality(OptimalQuality(settings, contentType), OutputFormat(contentType))))
                == Ok(encoded)
    requires IsImageCompressionWorthwhile(|data|, |encoded|)
    ensures CompressImage(settings, codecs, Some(data), contentType) == Some(encoded)
  {
  }

  /** The image result never grows and, when it changes, saves at least 10%. */
  lemma CompressImageNeverGrows(settings: ImageSettings, codecs: Codecs, data: Bytes, contentType: Option<string>)
    ensures var r := CompressImage(settings, codecs, Some(data), contentType);
            r.Some? && |r.value| <= |data| && (r.value != data ==> 10 * |r.value| <= 9 * |data|)
  {
  }

  /** The thumbnail request: the configured box, the same format rule, and a
      fixed quality for lossy formats. */
  function ThumbnailSpec(width: int, height: int, format: string): (spec: RenderSpec)
    ensures spec.sizing == FitWithin(width, height) && spec.format == format
    ensures IsLowerCase(format) ==>
              spec.quality == (if format in LossyFormats then Some(ThumbnailQuality) else None)
  {
    RenderSpec(FitWithin(width, height), format, RequestedQuality(ThumbnailQuality, format))
  }

  /** generateThumbnail: null when disabled, for null or empty input, for an
      undecodable or oversize image, and when encoding fails. */
  function GenerateThumbnail(settings: ImageSettings, codecs: Codecs, data: Option<Bytes>, contentType: Option<string>): (r: Option<Bytes>)
    ensures !settings.thumbnailEnabled || data.None? || |data.value| == 0 ==> r.None?
    ensures r.Some? <==>
              && settings.thumbnailEnabled && data.Some? && |data.value| > 0
              && ReadAndValidateImage(codecs, data.value).Ok?
              && ReadAndValidateImage(codecs, data.value).value.Some?
              && codecs.render(ReadAndValidateImage(codecs, data.value).value.value,
                               ThumbnailSpec(settings.thumbnailWidth, settings.thumbnailHeight, OutputFormat(contentType))).Ok?
    ensures r.Some? ==>
              codecs.render(ReadAndValidateImage(codecs, data.value).value.value,
                            ThumbnailSpec(settings.thumbnailWidth, settings.thumbnailHeight, OutputFormat(contentType)))
              == Ok(r.value)
  {
    if !settings.thumbnailEnabled || data.None? || |data.value| == 0 then None
    else
      match ReadAndValidateImage(codecs, data.value)
      case Ok(Some(image)) =>
        (match codecs.render(image, ThumbnailSpec(settings.thumbnailWidth, settings.thumbnailHeight, OutputFormat(contentType)))
         case Ok(thumbnail) => Some(thumbnail)
         case _ => None)
      case _ => None
  }

  /** generateSingleThumbnail: an IOException gives null, any other
      exception escapes. */
  function GenerateSingleThumbnail(codecs: Codecs, image: Raster, format: string, size: int): (r: Outcome<Option<Bytes>>)
    ensures r.Threw? <==> codecs.render(image, ThumbnailSpec(size, size, format)).Fault?
    ensures r.Returned? && r.value.Some? <==> codecs.render(image, ThumbnailSpec(size, size, format)).Ok?
    ensures r.Returned? && r.value.Some? ==> codecs.render(image, ThumbnailSpec(size, size, format)) == Ok(r.value.value)
  {
    match codecs.render(image, ThumbnailSpec(size, size, format))
    case Ok(thumbnail) => Returned(Some(thumbnail))
    case IoError => Returned(None)
    case Fault(m) => Threw(m)
  }

  predicate Renders(codecs: Codecs, image: Raster, format: string, size: int) {
    codecs.render(image, ThumbnailSpec(size, size, format)).Ok?
  }

  /** The successful renders, in the order of their sizes, with every failure
      dropped: what the thumbnail stream keeps when nothing aborts it. */
  function Rendered(codecs: Codecs, image: Raster, format: string, sizes: seq<int>): (r: seq<Bytes>)
    ensures |r| <= |sizes|
    ensures (forall i :: 0 <= i < |sizes| ==> Renders(codecs, image, format, sizes[i])) ==>
              |r| == |sizes| && forall i :: 0 <= i < |sizes| ==> codecs.render(image, ThumbnailSpec(sizes[i], sizes[i], format)) == Ok(r[i])
    ensures (forall i :: 0 <= i < |sizes| ==> !Renders(codecs, image, format, sizes[i])) ==> r == []
    decreases |sizes|
  {
    if |sizes| == 0 then []
    else
      assert forall i :: 1 <= i < |sizes| ==> sizes[i] == sizes[1..][i - 1];
      match codecs.render(image, ThumbnailSpec(sizes[0], sizes[0], format))
      case Ok(thumbnail) => [thumbnail] + Rendered(codecs, image, format, sizes[1..])
      case _ => Rendered(codecs, image, format, sizes[1..])
  }

  /** Filtering keeps the order of the sizes: the renders of a split list are
      the renders of its first part followed by those of the second. */
  lemma {:induction false} RenderedConcat(codecs: Codecs, image: Raster, format: string, a: seq<int>, b: seq<int>)
    ensures Rendered(codecs, image, format, a + b) == Rendered(codecs, image, format, a) + Rendered(codecs, image, format, b)
    decreases |a|
  {
    if |a| > 0 {
      assert (a + b)[1..] == a[1..] + b;
      RenderedConcat(codecs, image, format, a[1..], b);
    } else {
      assert a + b == b;
    }
  }

  /** The stream `map(generateSingleThumbnail).filter(nonNull).toList()`:
      the successful renders in input order; an exception other than
      IOException aborts the whole stream. */
  function ThumbnailStream(codecs: Codecs, image: Raster, format: string, sizes: seq<int>): (r: Outcome<seq<Bytes>>)
    ensures r.Threw? <==> exists i :: 0 <= i < |sizes| && codecs.render(image, ThumbnailSpec(sizes[i], sizes[i], format)).Fault?
    ensures r.Returned? ==> r.value == Rendered(codecs, image, format, sizes)
    decreases |sizes|
  {
    if |sizes| == 0 then Returned([])
    else
      match GenerateSingleThumbnail(codecs, image, format, sizes[0])
      case Threw(m) => Threw(m)
      case Returned(first) =>
        var rest := ThumbnailStream(codecs, image, format, sizes[1..]);
        assert forall i :: 1 <= i < |sizes| ==> sizes[i] == sizes[1..][i - 1];
        match rest
        case Threw(m) => Threw(m)
        case Returned(tail) =>
          Returned((if first.Some? then [first.value] else []) + tail)
  }

  /** generateMultipleThumbnails. */
  function GenerateMultipleThumbnails(settings: ImageSettings, codecs: Codecs, data: Option<Bytes>, contentType: Option<string>, sizes: seq<int>): (r: seq<Bytes>)
    ensures !settings.thumbnailEnabled || data.None? || |sizes| == 0 ==> r == []
    ensures |r| <= |sizes|
    ensures settings.thumbnailEnabled && data.Some? && |sizes| > 0 ==>
              var read := ReadAndValidateImage(codecs, data.value);
              && (!(read.Ok? && read.value.Some?) ==> r == [])
              && (read.Ok? && read.value.Some? ==>
                    var stream := ThumbnailStream(codecs, read.value.value, OutputFormat(contentType), sizes);
                    r == if stream.Returned? then stream.value else [])
    ensures r != [] ==>
              && data.Some? && ReadAndValidateImage(codecs, data.value).Ok?
              && ReadAndValidateImage(codecs, data.value).value.Some?
              && ThumbnailStream(codecs, ReadAndValidateImage(codecs, data.value).value.value,
                                 OutputFormat(contentType), sizes) == Returned(r)
  {
    if !settings.thumbnailEnabled || data.None? || |sizes| == 0 then []
    else
      match ReadAndValidateImage(codecs, data.value)
      case Ok(Some(image)) =>
        (match ThumbnailStream(codecs, image, OutputFormat(contentType), sizes)
         case Returned(thumbnails) => thumbnails
         case Threw(_) => [])
      case _ => []
  }

  /** ImageMetadataImpl; the floating-point aspect ratio is not kept. */
  datatype ImageMetadata = ImageMetadata(width: int, height: int, sizeInBytes: int, hasAlpha: bool) {
    function PixelCount(): int { width * height }
  }

  /** getImageMetadata: no dimension gate; an IOException gives null, any
      other exception escapes. */
  function GetImageMetadata(codecs: Codecs, data: Bytes): (r: Outcome<Option<ImageMetadata>>)
    ensures r.Threw? <==> codecs.decode(data).Fault?
    ensures r.Returned? && r.value.Some? <==> codecs.decode(data).Ok? && codecs.decode(data).value.Some?
    ensures r.Returned? && r.value.Some? ==>
              var image := codecs.decode(data).value.value;
              r.value.value == ImageMetadata(image.width, image.height, |data|, image.hasAlpha)
  {
    match codecs.decode(data)
    case Ok(None) => Returned(None)
    case Ok(Some(image)) => Returned(Some(ImageMetadata(image.width, image.height, |data|, image.hasAlpha)))
    case IoError => Returned(None)
    case Fault(m) => Threw(m)
  }
}

=== FILE: legacy_imaging.dfy ===
/** The older image service (ImageProcessingService) that the storage
    adapters call, and how its decisions differ from the unified service in
    module Imaging. */
module LegacyImaging {
  import opened Common
  import opened Library
  import Imaging

  /** Case-sensitive "image/" prefix test. */
  predicate IsImageFile(contentType: Option<string>) {
    contentType.Some? && StartsWith(contentType.value, "image/")
  }

  /** Only the configured allow-list decides; the subtype is everything after
      the six characters of "image/". */
  predicate IsSupportedImageFormat(settings: ImageSettings, contentType: Option<string>) {
    IsImageFile(contentType) && Lower(contentType.value[6..]) in settings.allowedFormats
  }

  /** getFormatName: `substring(6)`, lower-cased, with "jpeg" renamed "jpg";
      a type shorter than six characters throws. */
  function FormatName(contentType: string): (r: Outcome<string>)
    ensures r.Threw? <==> |contentType| < 6
    ensures r.Returned? ==> IsLowerCase(r.value) && r.value != "jpeg"
    ensures r.Returned? && Lower(contentType[6..]) != "jpeg" ==> r.value == Lower(contentType[6..])
    ensures r.Returned? && Lower(contentType[6..]) == "jpeg" ==> r.value == "jpg"
  {
    if |contentType| < 6 then Threw("begin 6, end " + DecimalString(|contentType|) + ", length " + DecimalString(|contentType|))
    else
      var format := Lower(contentType[6..]);
      LowerIsLowerCase(contentType[6..]);
      Returned(if format == "jpeg" then "jpg" else format)
  }

  /** compressImage: no emptiness guard, no dimension gate and no savings
      threshold; quality is always requested. An IOException returns the
      input; other exceptions escape. */
  function CompressImage(settings: ImageSettings, codecs: Codecs, data: Bytes, contentType: string): (r: Outcome<Bytes>)
    ensures !settings.compressionEnabled ==> r == Returned(data)
    ensures settings.compressionEnabled && codecs.decode(data).Ok? && codecs.decode(data).value.None? ==> r == Returned(data)
    ensures settings.compressionEnabled && codecs.decode(data).IoError? ==> r == Returned(data)
    ensures r.Threw? <==>
              && settings.compressionEnabled
              && (|| codecs.decode(data).Fault?
                  || (&& codecs.decode(data).Ok? && codecs.decode(data).value.Some?
                      && (|| FormatName(contentType).Threw?
                          || codecs.render(codecs.decode(data).value.value,
                                           RenderSpec(FullScale, FormatName(contentType).value, Some(settings.quality))).Fault?)))
    ensures && settings.compressionEnabled && codecs.decode(data).Ok? && codecs.decode(data).value.Some?
            && FormatName(contentType).Returned? ==>
              var encoded := codecs.render(codecs.decode(data).value.value,
                                           RenderSpec(FullScale, FormatName(contentType).value, Some(settings.quality)));
              && (encoded.Ok? ==> r == Returned(encoded.value))
              && (encoded.IoError? ==> r == Returned(data))
    ensures r.Returned? && r.value != data ==>
              && settings.compressionEnabled && codecs.decode(data).Ok? && codecs.decode(data).value.Some?
              && FormatName(contentType).Returned?
              && codecs.render(codecs.decode(data).value.value,
                               RenderSpec(FullScale, FormatName(contentType).value, Some(settings.quality))) == Ok(r.value)
  {
    if !settings.compressionEnabled then Returned(data)
    else
      match codecs.decode(data)
      case Ok(None) => Returned(data)
      case Ok(Some(image)) =>
        (match FormatName(contentType)
         case Threw(m) => Threw(m)
         case Returned(format) =>
           match codecs.render(image, RenderSpec(FullScale, format, Some(settings.quality)))
           case Ok(encoded) => Returned(encoded)
           case IoError => Returned(data)
           case Fault(m) => Threw(m))
      case IoError => Returned(data)
      case Fault(m) => Threw(m)
  }

  /** generateThumbnail: the configured box, no quality and no dimension
      gate; null when disabled, undecodable, or on an IOException. */
  function GenerateThumbnail(settings: ImageSettings, codecs: Codecs, data: Bytes, contentType: string): (r: Outcome<Option<Bytes>>)
    ensures !settings.thumbnailEnabled ==> r == Returned(None)
    ensures r.Returned? && r.value.Some? <==>
              && settings.thumbnailEnabled && codecs.decode(data).Ok? && codecs.decode(data).value.Some?
              && FormatName(contentType).Returned?
              && codecs.render(codecs.decode(data).value.value,
                               RenderSpec(FitWithin(settings.thumbnailWidth, settings.thumbnailHeight),
                                          FormatName(contentType).value, None)).Ok?
    ensures r.Returned? && r.value.Some? ==>
              codecs.render(codecs.decode(data).value.value,
                            RenderSpec(FitWithin(settings.thumbnailWidth, settings.thumbnailHeight),
                                       FormatName(contentType).value, None)) == Ok(r.value.value)
    ensures r.Threw? <==>
              && settings.thumbnailEnabled
              && (|| codecs.decode(data).Fault?
                  || (&& codecs.decode(data).Ok? && codecs.decode(data).value.Some?
                      && (|| FormatName(contentType).Threw?
                          || codecs.render(codecs.decode(data).value.value,
                                           RenderSpec(FitWithin(settings.thumbnailWidth, settings.thumbnailHeight),
                                                      FormatName(contentType).value, None)).Fault?)))
  {
    if !settings.thumbnailEnabled then Returned(None)
    else
      match codecs.decode(data)
      case Ok(None) => Returned(None)
      case Ok(Some(image)) =>
        (match FormatName(contentType)
         case Threw(m) => Threw(m)
         case Returned(format) =>
           match codecs.render(image, RenderSpec(FitWithin(settings.thumbnailWidth, settings.thumbnailHeight), format, None))
           case Ok(thumbnail) => Returned(Some(thumbnail))
           case IoError => Returned(None)
           case Fault(m) => Threw(m))
      case IoError => Returned(None)
      case Fault(m) => Threw(m)
  }

  // ---------- how the two services differ ----------

  /** Every type the older service calls an image, the unified one does too. */
  lemma LegacyImageIsImage(contentType: Option<string>)
    ensures IsImageFile(contentType) ==> Imaging.IsImageFile(contentType)
  {
    if IsImageFile(contentType) {
      var s := contentType.value;
      assert Lower(s)[..6] == "image/";
      Imaging.IsImageFileByPrefix(contentType);
    }
  }

  /** ... but not conversely: the unified test ignores case. */
  lemma ImageTestCaseDiffers()
    ensures Imaging.IsImageFile(Some("IMAGE/PNG")) && !IsImageFile(Some("IMAGE/PNG"))
  {
    assert Lower("IMAGE/PNG")[..6] == "image/";
    Imaging.IsImageFileByPrefix(Some("IMAGE/PNG"));
    assert "IMAGE/PNG"[0] != "image/"[0];
  }

  /** On a type that starts with "image/" both services extract the same
      subtype. */
  lemma SameSubtype(contentType: string)
    requires StartsWith(contentType, "image/")
    ensures Imaging.ExtractFormat(Some(contentType)) == Lower(contentType[6..])
  {
    assert contentType[5] == '/';
    assert forall k :: 0 <= k < 5 ==> contentType[k] != '/';
    assert !IsWhitespace(contentType[0]);
    assert IndexOf(contentType, '/') == 5;
  }

  /** On such a type the unified service supports a format exactly when the
      older one does and the format is also built in: configuration can widen
      the older service but only narrow the unified one. */
  lemma {:induction false} SupportAgreement(settings: ImageSettings, contentType: string)
    requires StartsWith(contentType, "image/")
    ensures Imaging.IsSupportedImageFormat(settings, Some(contentType)) <==>
              IsSupportedImageFormat(settings, Some(contentType))
              && Lower(contentType[6..]) in Imaging.SupportedImageFormats
  {
    SameSubtype(contentType);
    LegacyImageIsImage(Some(contentType));
  }

  /** With the default allow-list the two agree on every such type. */
  lemma {:induction false} DefaultSettingsAgree(contentType: string)
    requires StartsWith(contentType, "image/")
    ensures Imaging.IsSupportedImageFormat(DefaultImageSettings(), Some(contentType)) <==>
              IsSupportedImageFormat(DefaultImageSettings(), Some(contentType))
  {
    SupportAgreement(DefaultImageSettings(), contentType);
  }

  /** A configured format outside the built-in set: supported by the older
      service only. */
  lemma WidenedAllowList()
    ensures var settings := DefaultImageSettings().(allowedFormats := {"tiff"});
            IsSupportedImageFormat(settings, Some("image/tiff"))
            && !Imaging.IsSupportedImageFormat(settings, Some("image/tiff"))
  {
    assert Lower("image/tiff"[6..]) == "tiff";
    SameSubtype("image/tiff");
  }

  /** The older format rule has no svg mapping. */
  lemma SvgFormatDiffers()
    ensures FormatName("image/svg+xml") == Returned("svg+xml")
    ensures Imaging.OutputFormat(Some("image/svg+xml")) == "png"
  {
    assert Lower("image/svg+xml"[6..]) == "svg+xml";
    SameSubtype("image/svg+xml");
  }

  /** An encoder that doubles every image: the older service hands back the
      larger bytes, the unified one keeps the original. */
  lemma NoSavingsThreshold()
    ensures var image := Raster(10, 10, false, []);
            var data: Bytes := [1, 2, 3];
            var codecs := Codecs(b => Ok(b), b => Ok(b), b => IoError,
                                 b => Ok(Some(image)), (r, spec) => Ok(data + data));
            && CompressImage(DefaultImageSettings(), codecs, data, "image/png") == Returned(data + data)
            && Imaging.CompressImage(DefaultImageSettings(), codecs, Some(data), Some("image/png")) == Some(data)
  {
    var data: Bytes := [1, 2, 3];
    assert data + data != data;
  }

  /** A 20000 x 20000 image: the older service still renders a thumbnail,
      the unified one refuses it at the dimension gate. */
  lemma NoDimensionGate()
    ensures var image := Raster(20000, 20000, false, []);
            var data: Bytes := [1, 2, 3];
            var codecs := Codecs(b => Ok(b), b => Ok(b), b => IoError,
                                 b => Ok(Some(image)), (r, spec) => Ok([7]));
            && GenerateThumbnail(DefaultImageSettings(), codecs, data, "image/png") == Returned(Some([7]))
            && Imaging.GenerateThumbnail(DefaultImageSettings(), codecs, Some(data), Some("image/png")).None?
  {
  }
}

=== FILE: library.dfy ===
/** The libraries the engine calls but does not implement (GZIP streams,
    PDFBox, ImageIO, Thumbnailator) and the image configuration it reads.
    Each library call is a field of `Codecs`: the model quantifies over every
    possible behaviour of the library instead of fixing one. */
module Library {
  import opened Common

  /** A decoded image as far as the engine looks at it. */
  datatype Raster = Raster(width: int, height: int, hasAlpha: bool, pixels: seq<int>)

  /** Thumbnailator's `scale(1.0)` or `size(w, h)` with the aspect ratio kept. */
  datatype Sizing = FullScale | FitWithin(width: int, height: int)

  /** One Thumbnailator request: sizing, output format name, and the output
      quality in hundredths when `outputQuality` is called at all. */
  datatype RenderSpec = RenderSpec(sizing: Sizing, format: string, quality: Option<int>)

  /** A PDF after PDFBox loaded it, cleared its metadata and saved it again. */
  datatype PdfSaved = PdfSaved(pages: nat, bytes: Bytes)

  datatype Codecs = Codecs(
    /** GZIPOutputStream at BEST_COMPRESSION over the whole payload. */
    gzip: Bytes -> Attempt<Bytes>,
    /** GZIPInputStream.readAllBytes. */
    gunzip: Bytes -> Attempt<Bytes>,
    /** Loader.loadPDF, clearing creator/producer/subject/keywords and the
        XMP metadata, then PDDocument.save. */
    pdfOptimize: Bytes -> Attempt<PdfSaved>,
    /** ImageIO.read: `Ok(None)` when no reader recognises the bytes. */
    decode: Bytes -> Attempt<Option<Raster>>,
    /** Thumbnails.of(image)...toOutputStream. */
    render: (Raster, RenderSpec) -> Attempt<Bytes>
  )

  /** The `file.storage.image` configuration; quality is in hundredths. */
  datatype ImageSettings = ImageSettings(
    compressionEnabled: bool,
    quality: int,
    thumbnailEnabled: bool,
    thumbnailWidth: int,
    thumbnailHeight: int,
    allowedFormats: set<string>
  )

  /** The built-in configuration defaults. */
  function DefaultImageSettings(): (s: ImageSettings)
    ensures s.compressionEnabled && s.thumbnailEnabled
    ensures s.quality == 80 && s.thumbnailWidth == 200 && s.thumbnailHeight == 200
    ensures s.allowedFormats == {"jpg", "jpeg", "png", "gif", "bmp", "webp"}
  {
    ImageSettings(true, 80, true, 200, 200, {"jpg", "jpeg", "png", "gif", "bmp", "webp"})
  }
}

=== FILE: minio.dfy ===
/** The MinIO storage adapter (MinioFileStorageService): how it names files,
    buckets and objects, which images it re-encodes and thumbnails on upload,
    and how its object store and file records stay consistent. The MinIO
    client is an in-memory map of objects and the JPA repository a map of
    records. */
module MinioStorage {
  import opened Common
  import opened Library
  import LegacyImaging

  const Provider: string := "minio"
  const UploadFailure: string := "Failed to upload file to MinIO"

  // ---------- names and keys ----------

  /** generateFileName: the id, followed by the original name's suffix from
      its last "." when it has one. */
  function GenerateFileName(fileId: string, originalFileName: Option<string>): (r: string)
    ensures StartsWith(r, fileId)
    ensures originalFileName.None? || '.' !in originalFileName.value ==> r == fileId
    ensures originalFileName.Some? && '.' in originalFileName.value ==>
              var name := originalFileName.value;
              var extension := r[|fileId|..];
              && 0 < |extension| <= |name|
              && extension == name[|name| - |extension|..]
              && extension[0] == '.'
              && forall k :: 0 < k < |extension| ==> extension[k] != '.'
  {
    if originalFileName.None? then fileId
    else
      var name := originalFileName.value;
      ContainsChar(name, '.');
      var extension := if Contains(name, ".") then name[LastIndexOf(name, '.')..] else "";
      assert (fileId + extension)[|fileId|..] == extension;
      fileId + extension
  }

  /** The file id a generated name starts with: everything before its first
      ".". */
  function FileIdOf(fileName: string): string {
    var dot := IndexOf(fileName, '.');
    if dot < 0 then fileName else fileName[..dot]
  }

  /** For a dot-free id (a UUID is hex digits and hyphens) the id is
      recoverable from the generated name. */
  lemma FileIdRecovered(fileId: string, originalFileName: Option<string>)
    requires '.' !in fileId
    ensures FileIdOf(GenerateFileName(fileId, originalFileName)) == fileId
  {
    var r := GenerateFileName(fileId, originalFileName);
    if |r| > |fileId| {
      assert r[|fileId|] == '.';
      assert forall k :: 0 <= k < |fileId| ==> r[k] != '.';
      assert IndexOf(r, '.') == |fileId|;
    } else {
      assert r == fileId;
      assert forall k :: 0 <= k < |r| ==> r[k] != '.';
    }
  }

  /** Hence two files with different dot-free ids never share a name. */
  lemma {:induction false} GeneratedNamesDistinct(id1: string, name1: Option<string>, id2: string, name2: Option<string>)
    requires '.' !in id1 && '.' !in id2 && id1 != id2
    ensures GenerateFileName(id1, name1) != GenerateFileName(id2, name2)
  {
    FileIdRecovered(id1, name1);
    FileIdRecovered(id2, name2);
  }

  /** The bucket for a file type: lower-cased, "_" replaced by "-". Upload,
      download, delete and thumbnail fetch all derive it this way. */
  function BucketName(fileType: string): (b: string)
    ensures |b| == |fileType|
    ensures forall i :: 0 <= i < |b| ==> b[i] == (if fileType[i] == '_' then '-' else LowerChar(fileType[i]))
    ensures '_' !in b && IsLowerCase(b)
  {
    ReplaceChar(Lower(fileType), '_', '-')
  }

  lemma {:induction false} BucketNameIdempotent(fileType: string)
    ensures BucketName(BucketName(fileType)) == BucketName(fileType)
  {
    var b := BucketName(fileType);
    LowerOfLowerCase(b);
    assert ReplaceChar(b, '_', '-') == b;
  }

  /** File types that differ only in letter case and in "_" versus "-"
      share a bucket. */
  lemma SharedBucket()
    ensures BucketName("profile_picture") == BucketName("Profile-Picture") == "profile-picture"
    ensures BucketName("NID") == "nid"
  {
    assert Lower("profile_picture") == "profile_picture";
    assert Lower("Profile-Picture") == "profile-picture";
    assert Lower("NID") == "nid";
  }

  function FileKey(fileName: string): string {
    "files/" + fileName
  }

  function ThumbnailKey(fileId: string): string {
    "thumbnails/" + fileId + "_thumb"
  }

  /** A file's object and any thumbnail object never share a key, and each
      key determines the name or id it was built from. */
  lemma KeysDistinct(fileName: string, fileId: string)
    ensures FileKey(fileName) != ThumbnailKey(fileId)
  {
    assert FileKey(fileName)[0] != ThumbnailKey(fileId)[0];
  }

  lemma FileKeyInjective(n1: string, n2: string)
    ensures FileKey(n1) == FileKey(n2) ==> n1 == n2
  {
    assert FileKey(n1)[6..] == n1;
    assert FileKey(n2)[6..] == n2;
  }

  lemma ThumbnailKeyInjective(id1: string, id2: string)
    ensures ThumbnailKey(id1) == ThumbnailKey(id2) ==> id1 == id2
  {
    assert ThumbnailKey(id1)[11..11 + |id1|] == id1;
    assert ThumbnailKey(id2)[11..11 + |id2|] == id2;
  }

  /** ThumbnailResponse's file name: "thumb_" and the original name, which
      Java prints as "null" when absent. */
  function ThumbnailFileName(originalFileName: Option<string>): (r: string)
    ensures StartsWith(r, "thumb_")
    ensures originalFileName.Some? ==> r[6..] == originalFileName.value
  {
    "thumb_" + (if originalFileName.Some? then originalFileName.value else "null")
  }

  // ---------- data ----------

  /** FileUploadRequest. */
  datatype UploadRequest = UploadRequest(
    fileName: Option<string>,
    contentType: string,
    content: Bytes,
    generateThumbnail: bool,
    compressImage: bool,
    fileType: string
  )

  /** FileEntity (and FileInfo, its field-for-field copy); times are ticks
      of an abstract clock. */
  datatype FileEntity = FileEntity(
    id: string,
    fileName: string,
    originalFileName: Option<string>,
    contentType: string,
    size: int,
    path: string,
    thumbnailPath: Option<string>,
    createdAt: int,
    updatedAt: int,
    isImage: bool,
    provider: string,
    fileType: string
  )

  datatype ObjectRef = ObjectRef(bucket: string, key: string)
  datatype StoredObject = StoredObject(content: Bytes, contentType: string)

  /** FileDownloadResponse and ThumbnailResponse. */
  datatype Download = Download(fileName: Option<string>, contentType: string, content: Bytes, size: int)
  datatype Thumbnail = Thumbnail(fileName: string, contentType: string, content: Bytes, size: int)

  /** What uploadFile stores: the final content and the thumbnail. */
  datatype Prepared = Prepared(content: Bytes, thumbnail: Option<Bytes>)

  /** The image work of uploadFile: only a supported image is touched; it is
      re-encoded when asked, and the thumbnail is made from the re-encoded
      content. An exception from the image service fails the upload. */
  function Prepare(settings: ImageSettings, codecs: Codecs, request: UploadRequest): (r: Outcome<Prepared>)
    ensures !LegacyImaging.IsSupportedImageFormat(settings, Some(request.contentType)) ==>
              r == Returned(Prepared(request.content, None))
    ensures r.Returned? && r.value.content != request.content ==>
              && LegacyImaging.IsSupportedImageFormat(settings, Some(request.contentType))
              && request.compressImage
              && LegacyImaging.CompressImage(settings, codecs, request.content, request.contentType)
                 == Returned(r.value.content)
    ensures r.Returned? && r.value.thumbnail.Some? ==>
              && LegacyImaging.IsSupportedImageFormat(settings, Some(request.contentType))
              && request.generateThumbnail
              && LegacyImaging.GenerateThumbnail(settings, codecs, r.value.content, request.contentType)
                 == Returned(r.value.thumbnail)
    ensures r.Threw? ==> LegacyImaging.IsSupportedImageFormat(settings, Some(request.contentType))
    ensures LegacyImaging.IsSupportedImageFormat(settings, Some(request.contentType)) ==>
              var compressed := if request.compressImage
                                then LegacyImaging.CompressImage(settings, codecs, request.content, request.contentType)
                                else Returned(request.content);
              && (compressed.Threw? ==> r == Threw(compressed.message))
              && (compressed.Returned? ==>
                    var thumbnail := if request.generateThumbnail
                                     then LegacyImaging.GenerateThumbnail(settings, codecs, compressed.value, request.contentType)
                                     else Returned(None);
                    && (thumbnail.Threw? ==> r == Threw(thumbnail.message))
                    && (thumbnail.Returned? ==> r == Returned(Prepared(compressed.value, thumbnail.value))))
  {
    var contentType := request.contentType;
    if !(LegacyImaging.IsImageFile(Some(contentType)) && LegacyImaging.IsSupportedImageFormat(settings, Some(contentType))) then
      Returned(Prepared(request.content, None))
    else
      var compressed :=
        if request.compressImage then LegacyImaging.CompressImage(settings, codecs, request.content, contentType)
        else Returned(request.content);
      match compressed
      case Threw(m) => Threw(m)
      case Returned(content) =>
        if !request.generateThumbnail then Returned(Prepared(content, None))
        else
          match LegacyImaging.GenerateThumbnail(settings, codecs, content, contentType)
          case Threw(m) => Threw(m)
          case Returned(thumbnail) => Returned(Prepared(content, thumbnail))
  }

  /** What a stored record promises about the objects: its object exists in
      its bucket with the recorded size, and so does its thumbnail when one
      is recorded. */
  predicate RecordStored(id: string, e: FileEntity, objects: map<ObjectRef, StoredObject>) {
    var bucket := BucketName(e.fileType);
    && e.id == id && '.' !in id && e.provider == Provider
    && FileIdOf(e.fileName) == id && e.path == FileKey(e.fileName)
    && ObjectRef(bucket, e.path) in objects
    && |objects[ObjectRef(bucket, e.path)].content| == e.size
    && (e.thumbnailPath.Some? ==>
          e.thumbnailPath.value == ThumbnailKey(id) && ObjectRef(bucket, ThumbnailKey(id)) in objects)
  }

  /** Objects a record may refer to, other than its own. */
  lemma {:induction false} ForeignKeys(e: FileEntity, otherId: string, otherName: string)
    requires e.path == FileKey(e.fileName)
    requires FileIdOf(e.fileName) != FileIdOf(otherName)
    requires e.id != otherId
    ensures e.path != FileKey(otherName) && e.path != ThumbnailKey(otherId)
    ensures ThumbnailKey(e.id) != FileKey(otherName) && ThumbnailKey(e.id) != ThumbnailKey(otherId)
  {
    FileKeyInjective(e.fileName, otherName);
    KeysDistinct(e.fileName, otherId);
    KeysDistinct(otherName, e.id);
    ThumbnailKeyInjective(e.id, otherId);
  }

  /** The record uploadFile saves for prepared content. */
  function UploadedEntity(request: UploadRequest, fileId: string, p: Prepared, now: int): (e: FileEntity)
    ensures e.id == fileId && e.provider == Provider && e.size == |p.content|
    ensures e.fileName == GenerateFileName(fileId, request.fileName) && e.path == FileKey(e.fileName)
    ensures e.thumbnailPath.Some? <==> p.thumbnail.Some?
    ensures e.thumbnailPath.Some? ==> e.thumbnailPath.value == ThumbnailKey(fileId)
    ensures e.isImage == LegacyImaging.IsImageFile(Some(request.contentType))
    ensures e.originalFileName == request.fileName && e.contentType == request.contentType
    ensures e.fileType == request.fileType && e.createdAt == now && e.updatedAt == now
  {
    var fileName := GenerateFileName(fileId, request.fileName);
    FileEntity(fileId, fileName, request.fileName, request.contentType, |p.content|, FileKey(fileName),
               if p.thumbnail.Some? then Some(ThumbnailKey(fileId)) else None,
               now, now, LegacyImaging.IsImageFile(Some(request.contentType)), Provider, request.fileType)
  }

  /** The objects after uploadFile: the thumbnail first when there is one,
      then the file itself. */
  function UploadedObjects(objects: map<ObjectRef, StoredObject>, request: UploadRequest, fileId: string, p: Prepared)
    : (r: map<ObjectRef, StoredObject>)
    ensures r.Keys == objects.Keys + {ObjectRef(BucketName(request.fileType), FileKey(GenerateFileName(fileId, request.fileName)))}
                      + (if p.thumbnail.Some? then {ObjectRef(BucketName(request.fileType), ThumbnailKey(fileId))} else {})
    ensures var fileRef := ObjectRef(BucketName(request.fileType), FileKey(GenerateFileName(fileId, request.fileName)));
            var thumbnailRef := ObjectRef(BucketName(request.fileType), ThumbnailKey(fileId));
            && r[fileRef] == StoredObject(p.content, request.contentType)
            && (p.thumbnail.Some? ==> r[thumbnailRef] == StoredObject(p.thumbnail.value, request.contentType))
            && forall k :: k in objects && k != fileRef && k != thumbnailRef ==> r[k] == objects[k]
  {
    KeysDistinct(GenerateFileName(fileId, request.fileName), fileId);
    var bucket := BucketName(request.fileType);
    var withThumbnail :=
      if p.thumbnail.Some? then objects[ObjectRef(bucket, ThumbnailKey(fileId)) := StoredObject(p.thumbnail.value, request.contentType)]
      else objects;
    withThumbnail[ObjectRef(bucket, FileKey(GenerateFileName(fileId, request.fileName))) := StoredObject(p.content, request.contentType)]
  }

  /** An upload stores a consistent record and leaves every other record
      consistent. */
  lemma {:induction false} UploadKeepsRecords(records: map<string, FileEntity>, objects: map<ObjectRef, StoredObject>,
                                              request: UploadRequest, fileId: string, p: Prepared, now: int)
    requires '.' !in fileId
    requires forall id :: id in records ==> RecordStored(id, records[id], objects)
    ensures var records' := records[fileId := UploadedEntity(request, fileId, p, now)];
            var objects' := UploadedObjects(objects, request, fileId, p);
            forall id :: id in records' ==> RecordStored(id, records'[id], objects')
  {
    var e := UploadedEntity(request, fileId, p, now);
    var objects' := UploadedObjects(objects, request, fileId, p);
    var bucket := BucketName(request.fileType);
    FileIdRecovered(fileId, request.fileName);
    KeysDistinct(e.fileName, fileId);
    assert objects'[ObjectRef(bucket, e.path)].content == p.content;
    assert RecordStored(fileId, e, objects');
    forall id | id in records && id != fileId
      ensures RecordStored(id, records[id], objects')
    {
      ForeignKeys(records[id], fileId, e.fileName);
    }
  }

  class MinioFileStore {
    const settings: ImageSettings
    const codecs: Codecs
    /** The buckets that exist on the server. */
    var buckets: set<string>
    /** The objects on the server. */
    var objects: map<ObjectRef, StoredObject>
    /** The file records, by id. */
    var records: map<string, FileEntity>

    ghost predicate Valid()
      reads this
    {
      && (forall ref :: ref in objects ==> ref.bucket in buckets)
      && (forall id :: id in records ==> RecordStored(id, records[id], objects))
    }

    constructor (settings: ImageSettings, codecs: Codecs)
      ensures Valid()
      ensures this.settings == settings && this.codecs == codecs
      ensures buckets == {} && objects == map[] && records == map[]
    {
      this.settings := settings;
      this.codecs := codecs;
      buckets := {};
      objects := map[];
      records := map[];
    }

    /** The image section of uploadFile: `content` is replaced by the
        re-encoded image and the thumbnail is made from it. */
    method PrepareContent(request: UploadRequest) returns (r: Outcome<Prepared>)
      ensures r == Prepare(settings, codecs, request)
    {
      var content := request.content;
      var thumbnailData: Option<Bytes> := None;
      if LegacyImaging.IsImageFile(Some(request.contentType))
         && LegacyImaging.IsSupportedImageFormat(settings, Some(request.contentType)) {
        if request.compressImage {
          var compressed := LegacyImaging.CompressImage(settings, codecs, content, request.contentType);
          if compressed.Threw? {
            return Threw(compressed.message);
          }
          content := compressed.value;
        }
        if request.generateThumbnail {
          var thumbnail := LegacyImaging.GenerateThumbnail(settings, codecs, content, request.contentType);
          if thumbnail.Threw? {
            return Threw(thumbnail.message);
          }
          thumbnailData := thumbnail.value;
        }
      }
      r := Returned(Prepared(content, thumbnailData));
    }

    /** uploadFile with a fresh UUID `fileId` and the current time `now`. The
        bucket is created first and survives a failed upload; nothing else
        changes when the image service throws. */
    method UploadFile(request: UploadRequest, fileId: string, now: int) returns (r: Outcome<FileEntity>)
      requires Valid()
      requires '.' !in fileId
      modifies this
      ensures Valid()
      ensures buckets == old(buckets) + {BucketName(request.fileType)}
      ensures Prepare(settings, codecs, request).Threw? ==>
                r == Threw(UploadFailure) && objects == old(objects) && records == old(records)
      ensures Prepare(settings, codecs, request).Returned? ==>
                var p := Prepare(settings, codecs, request).value;
                && r == Returned(UploadedEntity(request, fileId, p, now))
                && records == old(records)[fileId := r.value]
                && objects == UploadedObjects(old(objects), request, fileId, p)
    {
      var bucket := BucketName(request.fileType);
      if bucket !in buckets {
        buckets := buckets + {bucket};
      }

      var fileName := GenerateFileName(fileId, request.fileName);
      var isImage := LegacyImaging.IsImageFile(Some(request.contentType));
      var prepared := PrepareContent(request);
      if prepared.Threw? {
        return Threw(UploadFailure);
      }
      var content := prepared.value.content;
      var thumbnailPath: Option<string> := None;
      if prepared.value.thumbnail.Some? {
        var thumbnailKey := ThumbnailKey(fileId);
        objects := objects[ObjectRef(bucket, thumbnailKey) := StoredObject(prepared.value.thumbnail.value, request.contentType)];
        thumbnailPath := Some(thumbnailKey);
      }

      var fileKey := FileKey(fileName);
      objects := objects[ObjectRef(bucket, fileKey) := StoredObject(content, request.contentType)];

      var entity := FileEntity(fileId, fileName, request.fileName, request.contentType, |content|,
                               fileKey, thumbnailPath, now, now, isImage, Provider, request.fileType);
      assert entity == UploadedEntity(request, fileId, prepared.value, now);
      assert objects == UploadedObjects(old(objects), request, fileId, prepared.value);
      UploadKeepsRecords(records, old(objects), request, fileId, prepared.value, now);
      records := records[fileId := entity];
      r := Returned(entity);
    }

    /** downloadFile: the stored content under the original file name; empty
        for an unknown id or an object the server cannot return. */
    method DownloadFile(fileId: string) returns (r: Option<Download>)
      requires Valid()
      ensures fileId !in records ==> r.None?
      ensures fileId in records ==>
                var e := records[fileId];
                var ref := ObjectRef(BucketName(e.fileType), e.path);
                && r.Some?
                && r.value == Download(e.originalFileName, e.contentType, objects[ref].content, e.size)
                && |r.value.content| == r.value.size
    {
      if fileId !in records {
        return None;
      }
      var entity := records[fileId];
      var ref := ObjectRef(BucketName(entity.fileType), entity.path);
      if ref !in objects {
        return None;
      }
      var content := objects[ref].content;
      r := Some(Download(entity.originalFileName, entity.contentType, content, |content|));
    }

    /** getFileInfo. */
    function GetFileInfo(fileId: string): (r: Option<FileEntity>)
      reads this
      ensures r.Some? <==> fileId in records
      ensures r.Some? ==> r.value == records[fileId]
    {
      if fileId in records then Some(records[fileId]) else None
    }

    /** updateFileInfo: only the original file name and the update time
        change; the stored name and key keep the old extension. */
    method UpdateFileInfo(fileId: string, originalFileName: Option<string>, now: int) returns (r: Option<FileEntity>)
      requires Valid()
      modifies this
      ensures Valid()
      ensures buckets == old(buckets) && objects == old(objects)
      ensures fileId !in old(records) ==> r.None? && records == old(records)
      ensures fileId in old(records) ==>
                && r == Some(old(records)[fileId].(originalFileName := originalFileName, updatedAt := now))
                && records == old(records)[fileId := r.value]
    {
      if fileId !in records {
        return None;
      }
      var entity := records[fileId].(originalFileName := originalFileName, updatedAt := now);
      records := records[fileId := entity];
      r := Some(entity);
    }

    /** deleteFile: removes the object, the thumbnail object when recorded,
        and the record. */
    method DeleteFile(fileId: string) returns (deleted: bool)
      requires Valid()
      modifies this
      ensures Valid()
      ensures deleted <==> fileId in old(records)
      ensures records == old(records) - {fileId}
      ensures buckets == old(buckets)
      ensures fileId in old(records) ==>
                var e := old(records)[fileId];
                var bucket := BucketName(e.fileType);
                objects == old(objects) - {ObjectRef(bucket, e.path)}
                           - (if e.thumbnailPath.Some? then {ObjectRef(bucket, e.thumbnailPath.value)} else {})
      ensures fileId !in old(records) ==> objects == old(objects)
    {
      if fileId !in records {
        return false;
      }
      var entity := records[fileId];
      var bucket := BucketName(entity.fileType);
      objects := objects - {ObjectRef(bucket, entity.path)};
      if entity.thumbnailPath.Some? {
        objects := objects - {ObjectRef(bucket, entity.thumbnailPath.value)};
      }
      forall id | id in old(records) && id != fileId
        ensures RecordStored(id, old(records)[id], objects)
      {
        ForeignKeys(old(records)[id], fileId, entity.fileName);
      }
      records := records - {fileId};
      deleted := true;
    }

    /** getThumbnail: empty unless a thumbnail was recorded. */
    method GetThumbnail(fileId: string) returns (r: Option<Thumbnail>)
      requires Valid()
      ensures r.Some? <==> fileId in records && records[fileId].thumbnailPath.Some?
      ensures r.Some? ==>
                var e := records[fileId];
                && r.value.fileName == ThumbnailFileName(e.originalFileName)
                && r.value.contentType == e.contentType
                && r.value.content == objects[ObjectRef(BucketName(e.fileType), ThumbnailKey(fileId))].content
                && r.value.size == |r.value.content|
    {
      if fileId !in records || records[fileId].thumbnailPath.None? {
        return None;
      }
      var entity := records[fileId];
      var ref := ObjectRef(BucketName(entity.fileType), entity.thumbnailPath.value);
      if ref !in objects {
        return None;
      }
      var content := objects[ref].content;
      r := Some(Thumbnail(ThumbnailFileName(entity.originalFileName), entity.contentType, content, |content|));
    }

    /** fileExists: a record of this provider. */
    method FileExists(fileId: string) returns (found: bool)
      requires Valid()
      ensures found <==> fileId in records
    {
      found := fileId in records && records[fileId].provider == Provider;
    }
  }

  /** Uploading and then downloading gives back exactly the content the
      upload stored, under the caller's own file name. */
  method UploadThenDownload(store: MinioFileStore, request: UploadRequest, fileId: string, now: int)
    returns (r: Option<Download>)
    requires store.Valid() && '.' !in fileId
    modifies store
    ensures store.Valid()
    ensures Prepare(store.settings, store.codecs, request).Returned? ==>
              && r.Some?
              && r.value.content == Prepare(store.settings, store.codecs, request).value.content
              && r.value.fileName == request.fileName
  {
    var uploaded := store.UploadFile(request, fileId, now);
    r := store.DownloadFile(fileId);
  }
}

=== FILE: processing.dfy ===
/** The combined pipeline of the unified service (processFile): image
    optimisation and a thumbnail for images, generic compression for
    everything else, and the bookkeeping that reports what was done. */
module Processing {
  import opened Common
  import opened Library
  import Compression
  import Imaging

  /** ProcessingOptions; image quality is in hundredths. */
  datatype ProcessingOptions = ProcessingOptions(
    compressionEnabled: bool,
    imageOptimizationEnabled: bool,
    thumbnailGenerationEnabled: bool,
    thumbnailSize: int,
    imageQuality: int
  )

  /** ProcessingOptions.defaultOptions: every step on. */
  function DefaultOptions(): (o: ProcessingOptions)
    ensures o.compressionEnabled && o.imageOptimizationEnabled && o.thumbnailGenerationEnabled
    ensures o.thumbnailSize == 150 && o.imageQuality == 80
  {
    ProcessingOptions(true, true, true, 150, 80)
  }

  /** The values stored in the processing metadata map. */
  datatype MetaValue = Flag(b: bool) | Num(n: int) | Text(s: string)

  /** ProcessingResultImpl. */
  datatype ProcessingResult = ProcessingResult(
    processedData: Option<Bytes>,
    thumbnailData: Option<Bytes>,
    compressionResult: Option<Compression.CompressionResult>,
    imageMetadata: Option<Imaging.ImageMetadata>,
    processed: bool,
    processingMethod: string,
    processingMetadata: map<string, MetaValue>,
    totalSavedBytes: int
  )

  /** ProcessingResultImpl.noProcessing: nothing but the reason is set. */
  function NoProcessing(reason: string): (r: ProcessingResult)
    ensures !r.processed && r.processingMethod == "NONE" && r.totalSavedBytes == 0
    ensures r.processedData.None? && r.thumbnailData.None?
    ensures r.compressionResult.None? && r.imageMetadata.None?
    ensures r.processingMetadata == map["reason" := Text(reason)]
  {
    ProcessingResult(None, None, None, None, false, "NONE", map["reason" := Text(reason)], 0)
  }

  /** The metadata keys and method names are distinct strings, so writing one
      entry never overwrites another and the method labels never coincide. */
  lemma MetadataKeysDistinct()
    ensures |{"originalSize", "processedSize", "totalSavedBytes", "imageOptimized",
              "thumbnailGenerated", "thumbnailSize", "compressionApplied", "compressionMethod"}| == 8
    ensures |{"NONE", "IMAGE_OPTIMIZATION", "GZIP", "PDF_OPTIMIZATION"}| == 4
  {
  }

  /** The keys a completed run may write into the processing metadata. */
  const MetadataKeys: set<string> := {"originalSize", "processedSize", "totalSavedBytes", "imageOptimized",
                                      "thumbnailGenerated", "thumbnailSize", "compressionApplied", "compressionMethod"}

  /** The method names a processed result may report. */
  const ProcessingMethods: set<string> := {"NONE", "IMAGE_OPTIMIZATION", "GZIP", "PDF_OPTIMIZATION"}

  /** The entries the three steps write: each is present exactly when its
      step took effect, and holds the thumbnail size or the method name. */
  predicate StepEntries(m: map<string, MetaValue>, thumbnailData: Option<Bytes>, methodName: string) {
    && ("thumbnailGenerated" in m <==> thumbnailData.Some?)
    && ("thumbnailSize" in m <==> thumbnailData.Some?)
    && (thumbnailData.Some? ==> "thumbnailSize" in m && m["thumbnailSize"] == Num(|thumbnailData.value|))
    && ("compressionApplied" in m <==> methodName in Compression.MethodNames)
    && ("compressionMethod" in m <==> methodName in Compression.MethodNames)
    && (methodName in Compression.MethodNames ==> "compressionMethod" in m && m["compressionMethod"] == Text(methodName))
    && ("imageOptimized" in m <==> methodName == "IMAGE_OPTIMIZATION")
    && ("imageOptimized" in m ==> m["imageOptimized"] == Flag(true))
    && ("thumbnailGenerated" in m ==> m["thumbnailGenerated"] == Flag(true))
    && ("compressionApplied" in m ==> m["compressionApplied"] == Flag(true))
  }

  /** The metadata of a completed run: only the documented keys, the step
      entries, and the three sizes. */
  predicate MetadataRecorded(m: map<string, MetaValue>, originalSize: int, processedSize: int, saved: int,
                             thumbnailData: Option<Bytes>, methodName: string) {
    && m.Keys <= MetadataKeys
    && StepEntries(m, thumbnailData, methodName)
    && "originalSize" in m && m["originalSize"] == Num(originalSize)
    && "processedSize" in m && m["processedSize"] == Num(processedSize)
    && "totalSavedBytes" in m && m["totalSavedBytes"] == Num(saved)
  }

  /** Adding the three sizes to the step entries gives the recorded metadata. */
  lemma SizesRecorded(m: map<string, MetaValue>, originalSize: int, processedSize: int, saved: int,
                      thumbnailData: Option<Bytes>, methodName: string)
    requires m.Keys <= MetadataKeys - {"originalSize", "processedSize", "totalSavedBytes"}
    requires StepEntries(m, thumbnailData, methodName)
    ensures MetadataRecorded(m["originalSize" := Num(originalSize)]["processedSize" := Num(processedSize)]
                               ["totalSavedBytes" := Num(saved)], originalSize, processedSize, saved, thumbnailData, methodName)
  {
    MetadataKeysDistinct();
  }

  /** The image steps' entries. */
  lemma ImageEntries(optimisedKeys: map<string, MetaValue>, thumbnailKeys: map<string, MetaValue>,
                     thumbnailData: Option<Bytes>, changed: bool)
    requires optimisedKeys == if changed then map["imageOptimized" := Flag(true)] else map[]
    requires thumbnailKeys == if thumbnailData.Some?
                              then map["thumbnailGenerated" := Flag(true), "thumbnailSize" := Num(|thumbnailData.value|)]
                              else map[]
    ensures var m := optimisedKeys + thumbnailKeys;
            && m.Keys <= MetadataKeys - {"originalSize", "processedSize", "totalSavedBytes"}
            && StepEntries(m, thumbnailData, if changed then "IMAGE_OPTIMIZATION" else "NONE")
  {
    MetadataKeysDistinct();
  }

  /** The compression step's entries. */
  lemma CompressionEntries(keys: map<string, MetaValue>, result: Compression.CompressionResult)
    requires result.Valid()
    requires keys == if result.compressed
                     then map["compressionApplied" := Flag(true), "compressionMethod" := Text(result.methodName)]
                     else map[]
    ensures keys.Keys <= MetadataKeys - {"originalSize", "processedSize", "totalSavedBytes"}
    ensures StepEntries(keys, None, if result.compressed then result.methodName else "NONE")
  {
    MetadataKeysDistinct();
  }

  /** processFile: images are re-encoded and thumbnailed, other files go
      through compressFile; the two branches never both run, so the
      "<image>_<compression>" method name is never produced. */
  method ProcessFile(settings: ImageSettings, codecs: Codecs, data: Option<Bytes>,
                     contentType: Option<string>, options: ProcessingOptions)
    returns (r: ProcessingResult)
    // empty input and a metadata read that throws
    ensures data.None? || |data.value| == 0 ==> r == NoProcessing("Empty file")
    ensures data.Some? && |data.value| > 0 && Imaging.IsImageFile(contentType)
            && Imaging.GetImageMetadata(codecs, data.value).Threw? ==>
              r == NoProcessing("Processing failed: " + Imaging.GetImageMetadata(codecs, data.value).message)
    ensures r.processingMethod in ProcessingMethods
    ensures r.totalSavedBytes >= 0
    // bookkeeping of every completed run
    ensures r.processedData.Some? ==>
              && data.Some? && |data.value| > 0
              && r.totalSavedBytes == |data.value| - |r.processedData.value|
              && (r.processed <==> r.processedData.value != data.value || r.thumbnailData.Some?)
              && (r.processingMethod == "NONE" <==> r.processedData.value == data.value)
              && MetadataRecorded(r.processingMetadata, |data.value|, |r.processedData.value|, r.totalSavedBytes,
                                  r.thumbnailData, r.processingMethod)
    // the image branch
    ensures data.Some? && |data.value| > 0 && Imaging.IsImageFile(contentType)
            && Imaging.GetImageMetadata(codecs, data.value).Returned? ==>
              && r.imageMetadata == Imaging.GetImageMetadata(codecs, data.value).value
              && r.compressionResult.None?
              && r.processingMethod == (if r.processedData != data then "IMAGE_OPTIMIZATION" else "NONE")
              && r.processedData == (if options.imageOptimizationEnabled
                                     then Imaging.CompressImage(settings, codecs, data, contentType)
                                     else data)
              && r.thumbnailData == (if options.thumbnailGenerationEnabled
                                     then Imaging.GenerateThumbnail(settings, codecs, data, contentType)
                                     else None)
    // the compression branch
    ensures data.Some? && |data.value| > 0 && !Imaging.IsImageFile(contentType) ==>
              && r.imageMetadata.None? && r.thumbnailData.None?
              && r.compressionResult == (if options.compressionEnabled
                                         then Some(Compression.CompressFile(codecs, data, contentType))
                                         else None)
              && (r.compressionResult.Some? && r.compressionResult.value.compressed ==>
                    && r.processedData == r.compressionResult.value.compressedData
                    && r.processingMethod == r.compressionResult.value.methodName
                    && r.totalSavedBytes == r.compressionResult.value.SavedBytes())
              && (r.compressionResult.None? || !r.compressionResult.value.compressed ==>
                    r.processedData == data && r.processingMethod == "NONE")
  {
    if data.None? || |data.value| == 0 {
      return NoProcessing("Empty file");
    }
    MetadataKeysDistinct();
    var fileData := data.value;
    var processedData := fileData;
    var thumbnailData: Option<Bytes> := None;
    var compressionResult: Option<Compression.CompressionResult> := None;
    var imageMetadata: Option<Imaging.ImageMetadata> := None;
    var processingMethod := "NONE";
    var processingMetadata: map<string, MetaValue> := map[];
    var totalSavedBytes := 0;

    if Imaging.IsImageFile(contentType) {
      var read := Imaging.GetImageMetadata(codecs, fileData);
      if read.Threw? {
        return NoProcessing("Processing failed: " + read.message);
      }
      imageMetadata := read.value;
      var optimised, optimisedKeys := OptimiseImage(settings, codecs, fileData, contentType, options);
      processedData := optimised;
      if processedData != fileData {
        processingMethod := "IMAGE_OPTIMIZATION";
        totalSavedBytes := totalSavedBytes + (|fileData| - |processedData|);
      }
      var thumbnail, thumbnailKeys := Thumbnail(settings, codecs, fileData, contentType, options);
      thumbnailData := thumbnail;
      processingMetadata := optimisedKeys + thumbnailKeys;
      ImageEntries(optimisedKeys, thumbnailKeys, thumbnailData, processedData != fileData);
    }

    if options.compressionEnabled && !Imaging.IsImageFile(contentType) {
      var result, compressedKeys := CompressOther(codecs, processedData, contentType);
      compressionResult := Some(result);
      if result.compressed {
        processedData := result.compressedData.value;
        totalSavedBytes := totalSavedBytes + result.SavedBytes();
        processingMethod := if processingMethod == "NONE" then result.methodName
                            else processingMethod + "_" + result.methodName;
      }
      assert processingMetadata == map[];
      processingMetadata := processingMetadata + compressedKeys;
      assert processingMetadata == compressedKeys;
      CompressionEntries(compressedKeys, result);
    }

    assert processingMetadata.Keys <= MetadataKeys - {"originalSize", "processedSize", "totalSavedBytes"};
    assert StepEntries(processingMetadata, thumbnailData, processingMethod);
    SizesRecorded(processingMetadata, |fileData|, |processedData|, totalSavedBytes, thumbnailData, processingMethod);
    processingMetadata := processingMetadata["originalSize" := Num(|fileData|)];
    processingMetadata := processingMetadata["processedSize" := Num(|processedData|)];
    processingMetadata := processingMetadata["totalSavedBytes" := Num(totalSavedBytes)];

    r := ProcessingResult(Some(processedData), thumbnailData, compressionResult, imageMetadata,
                          processedData != fileData || thumbnailData.Some?,
                          processingMethod, processingMetadata, totalSavedBytes);
  }

  /** The image-optimisation step of processFile: the re-encoded image when
      enabled, and the "imageOptimized" entry when it differs. */
  method OptimiseImage(settings: ImageSettings, codecs: Codecs, fileData: Bytes,
                       contentType: Option<string>, options: ProcessingOptions)
    returns (processedData: Bytes, keys: map<string, MetaValue>)
    requires |fileData| > 0
    ensures Some(processedData) == (if options.imageOptimizationEnabled
                                    then Imaging.CompressImage(settings, codecs, Some(fileData), contentType)
                                    else Some(fileData))
    ensures |processedData| <= |fileData|
    ensures processedData != fileData ==> Imaging.IsImageCompressionWorthwhile(|fileData|, |processedData|)
    ensures keys == if processedData != fileData then map["imageOptimized" := Flag(true)] else map[]
  {
    processedData := fileData;
    keys := map[];
    if options.imageOptimizationEnabled {
      Imaging.CompressImageNeverGrows(settings, codecs, fileData, contentType);
      processedData := Imaging.CompressImage(settings, codecs, Some(fileData), contentType).value;
      if processedData != fileData {
        keys := keys["imageOptimized" := Flag(true)];
      }
    }
  }

  /** The thumbnail step of processFile, with its "thumbnailGenerated" and
      "thumbnailSize" entries. */
  method Thumbnail(settings: ImageSettings, codecs: Codecs, fileData: Bytes,
                   contentType: Option<string>, options: ProcessingOptions)
    returns (thumbnailData: Option<Bytes>, keys: map<string, MetaValue>)
    requires |fileData| > 0
    ensures thumbnailData == (if options.thumbnailGenerationEnabled
                              then Imaging.GenerateThumbnail(settings, codecs, Some(fileData), contentType)
                              else None)
    ensures keys == if thumbnailData.Some?
                    then map["thumbnailGenerated" := Flag(true), "thumbnailSize" := Num(|thumbnailData.value|)]
                    else map[]
  {
    thumbnailData := None;
    keys := map[];
    if options.thumbnailGenerationEnabled {
      thumbnailData := Imaging.GenerateThumbnail(settings, codecs, Some(fileData), contentType);
      if thumbnailData.Some? {
        keys := keys["thumbnailGenerated" := Flag(true)];
        keys := keys["thumbnailSize" := Num(|thumbnailData.value|)];
      }
    }
  }

  /** The compression step of processFile for a non-image, with its
      "compressionApplied" and "compressionMethod" entries. */
  method CompressOther(codecs: Codecs, fileData: Bytes, contentType: Option<string>)
    returns (result: Compression.CompressionResult, keys: map<string, MetaValue>)
    requires |fileData| > 0
    ensures result == Compression.CompressFile(codecs, Some(fileData), contentType)
    ensures result.Valid()
    ensures result.compressed ==>
              && result.originalSize == |fileData|
              && result.SavedBytes() == |fileData| - |result.compressedData.value| > 0
    ensures keys == if result.compressed
                    then map["compressionApplied" := Flag(true), "compressionMethod" := Text(result.methodName)]
                    else map[]
  {
    result := Compression.CompressFile(codecs, Some(fileData), contentType);
    keys := map[];
    if result.compressed {
      keys := keys["compressionApplied" := Flag(true)];
      keys := keys["compressionMethod" := Text(result.methodName)];
    }
  }

  /** The three-argument processFile, which runs with the default options:
      every eligible step is attempted. */
  method ProcessFileWithDefaults(settings: ImageSettings, codecs: Codecs, data: Option<Bytes>,
                                 contentType: Option<string>)
    returns (r: ProcessingResult)
    ensures data.None? || |data.value| == 0 ==> r == NoProcessing("Empty file")
    ensures data.Some? && |data.value| > 0 && !Imaging.IsImageFile(contentType) ==>
              r.compressionResult == Some(Compression.CompressFile(codecs, data, contentType))
    ensures data.Some? && |data.value| > 0 && Imaging.IsImageFile(contentType)
            && Imaging.GetImageMetadata(codecs, data.value).Returned? ==>
              && r.processedData == Imaging.CompressImage(settings, codecs, data, contentType)
              && r.thumbnailData == Imaging.GenerateThumbnail(settings, codecs, data, contentType)
  {
    r := ProcessFile(settings, codecs, data, contentType, DefaultOptions());
  }
}
